=== FILE: README.md ===
# waf-server core in Dafny

This project models the server core of waf-server (`app.js`). waf-server is
a small web application firewall for one site. It has four parts:

- **The IP block list.** An in-memory set of addresses sits beside a
  persisted `blocked_ips` table. An admission middleware refuses listed
  clients with 403 on every route registered after it (app.js:63). Static
  files and `/` (app.js:19, 24) are registered before it, so they are not
  guarded by it. `blockIP` and `unblockIP` keep the set and the table
  together and write audit rows.
- **The external-service quota governor.** Each of VirusTotal and AbuseIPDB
  has a counter that is checked against `perDay` (100) before any call,
  raised before the call and zeroed by a daily reset. An AbuseIPDB score
  above 80 blocks the address.
- **The scan-to-quarantine pipeline.** Every file the ClamAV scan reports
  as infected is moved to `QUARANTINE_DIR/<basename>`. Quarantined files
  can be restored to the root of the served tree or deleted.
- **Snapshot backups.** Snapshots are named
  `backup_<6h|24h>_<sanitised ISO timestamp>`. `rsync --link-dest` is
  pointed at the latest snapshot of the tier. A retention sweep is meant to
  delete 6-hour snapshots older than 7 days and daily ones older than 30
  days. Each snapshot is a directory, though, and the sweep calls
  `fs.unlink` on it, which refuses directories. The sweep as written
  therefore stops at the first expired snapshot and deletes none (see
  Findings).

All of these write rows to the append-only `logs` table, written by
`addLog`.

## How the model is organised

| file | module | contents |
|---|---|---|
| `outcomes.dfy` | `Outcomes` | `Option`, `Outcome` (a promise resolved or thrown) and `Reply` (an external answer or a failure) |
| `paths.dfy` | `Paths` | `path.join`, `path.basename`, prefix test and the string order of `Array.prototype.sort` |
| `audit.dfy` | `AuditTrail` | event types, row details, the `logs` table as class `AuditLog`, and the `/stats` counts |
| `blocklist.dfy` | `BlockListing` | class `BlockList`, with its transitions as pure functions on a `BlockState` value |
| `ratelimits.dfy` | `RateLimits` | classes `ApiLimit` and `ApiLimits`, the AbuseIPDB and VirusTotal checks, and the auto-block policy |
| `quarantine.dfy` | `Quarantine` | class `FileStore` (the served tree's files and the quarantine as maps, the tree's directories as a set), the scan loop, restore and delete |
| `backups.dfy` | `Backups` | snapshot naming, latest-snapshot selection, class `BackupStore`, the backup run and the retention sweep |

Code that changes state is written as class methods with `modifies`
clauses. This covers the block-list mutations, the counters, the scan loop,
the quarantine moves, the backup run and the sweep loop. Each method's
`ensures` ties its new state to a pure transition function of the old
state. The properties the source promises are then proved as lemmas about
those functions.

External effects become parameters:

- the answer an external service would give (`Reply`);
- whether a filesystem move, unlink, `readdir`, `ensureDir` or `rsync`
  succeeds;
- `failAt`, the position of the first failing step in a loop;
- the current time, as an ISO string and as milliseconds.

## Model

| member | source | states |
|---|---|---|
| AuditTrail.AuditLog.Add | app.js:94-96 | `addLog` appends exactly one `(event_type, details)` row and keeps every earlier row |
| AuditTrail.CountOf | app.js:392-393 | the number of rows of an event type is at most the log's length |
| AuditTrail.NamesDistinct | app.js:391-394 | distinct events are stored under distinct `event_type` texts, so selecting rows by that text selects exactly one event's rows |
| AuditTrail.CountOfZero | app.js:392-393 | that number is zero exactly when no row has that type |
| AuditTrail.LastOf | app.js:395 | the most recent row of a type: absent exactly when there is none, otherwise a row of that type with no later one |
| AuditTrail.GetStats | app.js:390-402 | `/stats` reports exactly the number of `DIRECTORY_SCAN_COMPLETE` rows, exactly the number of `FILE_QUARANTINED` rows and the block list's size; the last scan is absent exactly when no scan completed, otherwise it is a `DIRECTORY_SCAN_COMPLETE` row with no later one |
| BlockListing.BlockList.Admit | app.js:53-60 | the middleware answers 403 exactly when the client's address is in the in-memory set |
| BlockListing.BlockList.constructor | app.js:50 | a fresh process starts with an empty set beside the table that survived the restart |
| BlockListing.BlockList.Load | app.js:89-90 | loading adds every row of `blocked_ips` to the set, one by one, and leaves the log alone |
| BlockListing.LoadCoversTable | app.js:89-90 | after loading, every persisted address is denied; loading into an empty set makes memory equal storage |
| BlockListing.BlockList.Block | app.js:99-105 | `blockIP` performs `BlockStep` on the set, the table and the log |
| BlockListing.BlockDeniesOnlyThatAddress | app.js:99-105 | blocking denies that address and leaves every other address's decision as it was; a new address is added to the table with one `IP_BLOCKED` row; an address already blocked changes nothing |
| BlockListing.BlockList.Unblock | app.js:108-114 | `unblockIP` performs `UnblockStep` on the set, the table and the log |
| BlockListing.UnblockAdmitsOnlyThatAddress | app.js:108-114 | unblocking admits that address and leaves all others as they were; a blocked address leaves the table with one `IP_UNBLOCKED` row; an absent address changes nothing |
| BlockListing.BlockIdempotent | app.js:100-104 | blocking twice equals blocking once and writes at most one `IP_BLOCKED` row |
| BlockListing.UnblockIdempotent | app.js:109-113 | unblocking twice equals unblocking once |
| BlockListing.BlockThenUnblockRestores | app.js:99-114 | blocking then unblocking an address that was not blocked restores the set and the table, and writes the two rows in order |
| BlockListing.StepsKeepSynced | app.js:99-114 | both mutations keep memory equal to storage |
| BlockListing.ApplyAccounts | app.js:99-114 | one block or unblock keeps memory equal to storage, only appends to the log, and changes the set's size by the rows written |
| BlockListing.AuditAccountsForBlockList | app.js:99-114 | over any series of blocks and unblocks, memory stays equal to storage, the log only grows, and the set's growth equals the `IP_BLOCKED` rows written minus the `IP_UNBLOCKED` rows written |
| RateLimits.ApiLimits.constructor | app.js:42-45 | both services start at count 0 with `perDay` 100 and `daily` 500 |
| RateLimits.ApiLimits.ResetCounters | app.js:496-499 | the reset zeroes both counters together and keeps each within its ceiling |
| RateLimits.CheckIPWithAbuseIPDB | app.js:140-163 | `checkIPWithAbuseIPDB` performs `AbuseCheck` on the counter, the block list and the log, and keeps the counter within its ceiling |
| RateLimits.AbuseQuotaGate | app.js:141-147 | at or over the ceiling: `null`, one `API_LIMIT_REACHED` row, and neither the counter nor the block list changes; below it the counter rises by exactly one whatever the answer; the counter never passes the ceiling |
| RateLimits.AutoBlockThreshold | app.js:152-158 | a reply whose score is strictly above 80 leaves the address blocked and denied and returns the reply; any other outcome leaves both sets unchanged |
| RateLimits.ScoreOfEightyDoesNotBlock | app.js:154-156 | a score of exactly 80 leaves an unblocked address admitted |
| RateLimits.FailedCheckBlocksNothing | app.js:150-162 | a failed call (or a reply without `data`) returns `null`, blocks nothing and writes exactly the `ABUSEIPDB_ERROR` row (after the `ABUSEIPDB_CHECK` row for a reply) |
| RateLimits.AbuseCheckLimitRows | app.js:141-143 | one check writes an `API_LIMIT_REACHED` row exactly when it is refused |
| RateLimits.QuotaOverManyChecks | app.js:140-163 | in one quota period, `n` checks from a counter within its ceiling raise it to `min(count + n, perDay)`, and every check that is not let through writes one `API_LIMIT_REACHED` row |
| RateLimits.CheckFileWithVirusTotal | app.js:117-137 | `checkFileWithVirusTotal` performs `VirusTotalFileCheck` on the counter and the log, and keeps the counter within its ceiling |
| RateLimits.VirusTotalQuotaGate | app.js:117-137 | exactly one row per check; refused at or over the ceiling with `API_LIMIT_REACHED` and no counter change; otherwise the counter rises by one and the report is returned exactly when the call succeeds |
| Paths.Join | app.js:212 | a joined path starts with the directory and a slash and is one longer than both parts together |
| Paths.JoinInjective | app.js:328 | two names joined to one directory give the same path exactly when they are the same name |
| Paths.BasenameSpec | app.js:212 | once trailing slashes are dropped, the base name is the longest slash-free suffix of the path: a suffix, holding no slash, preceded by a slash unless it is the whole path; it is empty exactly when the path is all slashes |
| Paths.BasenameOfJoin | app.js:212 | the base name of a directory joined with a bare name is that name |
| Paths.LexLeTotal | app.js:249 | any two names are ordered by the sort's string comparison |
| Paths.LexLeTransitive | app.js:249 | that order is transitive |
| Paths.LexLeAntisymmetric | app.js:249 | names ordered both ways are equal |
| Quarantine.FileStore.HandleInfectedFile | app.js:210-219 | `handleInfectedFile` performs `HandleStep` on the tree, the quarantine and the log: the move succeeds only when the file is present, its base name is not yet quarantined (the move does not overwrite) and the filesystem does not fail |
| Quarantine.FileStore.QuarantineFiles | app.js:196-200 | the loop over the infected files ends in the state `QuarantineAll` describes, having moved exactly the files before the first failed move |
| Quarantine.FileStore.ScanDirectory | app.js:193-207 | `scanDirectory` performs `ScanStep` on the tree, the quarantine and the log |
| Quarantine.WithoutSpec | app.js:197-199 | exactly the moved files leave the tree, and every other file keeps its content |
| Quarantine.FillKeys | app.js:212-213 | the quarantine gains exactly the base names of the moved files |
| Quarantine.FillKeepsOtherNames | app.js:212-213 | a quarantined name that no moved file has keeps its content |
| Quarantine.FillLastWriterWins | app.js:212-213 | under a moved file's base name lies its content unless a later moved file has the same base name (which the loop never moves) |
| Quarantine.QuarantinedRowsAt | app.js:214 | the `i`-th `FILE_QUARANTINED` row names the `i`-th listed file, its quarantine path and its virus |
| Quarantine.StopAtFirstUnmovable | app.js:197-199 | every moved file was present, not failed, and had a base name free in the quarantine and among the earlier files; the loop stops at a file that is failed, missing, or whose base name is already quarantined or was moved earlier in the loop |
| Quarantine.QuarantineAllPlacesFiles | app.js:196-200 | every moved file has left the tree and lies under its base name with its own content; every file quarantined before keeps its content; the quarantine holds exactly the old names and the moved files' base names |
| Quarantine.QuarantineAllMovesEverything | app.js:196-200 | with no failure, and listed files all present with distinct base names not yet quarantined, every listed file is moved and lies in the quarantine under its base name with its content |
| Quarantine.QuarantineAllNext | app.js:197-198 | one more `handleInfectedFile` call takes the loop over `i` files to the loop over `i + 1` |
| Quarantine.QuarantineAllStops | app.js:215-217 | once a move has thrown, later listed files make no difference |
| Quarantine.SameBasenameAborts | app.js:196-217 | of two infected files with one base name only the first is moved; the second move throws because its destination exists, the scan ends with `FILE_QUARANTINE_ERROR` then `DIRECTORY_SCAN_ERROR` and rethrows, and the second file stays served with its content |
| Quarantine.ScanSettlesIffAllMoved | app.js:193-207 | a scan settles exactly when the scanner answered and every listed infected file was moved, and then returns the report |
| Quarantine.ScanRowsAccount | app.js:193-207 | a settled scan writes exactly one `DIRECTORY_SCAN_COMPLETE` row, infected or clean, plus one `FILE_QUARANTINED` row per listed file; a thrown scan writes one `DIRECTORY_SCAN_ERROR` row and no completion row |
| Quarantine.ScanAbortLeavesLaterFiles | app.js:203-205 | a failed move ends the run with `FILE_QUARANTINE_ERROR` then `DIRECTORY_SCAN_ERROR`, rethrows, and leaves every later file where it was with its content |
| Quarantine.FileStore.RestoreFromQuarantine | app.js:339-349 | the restore route performs `RestoreStep` on the tree, the quarantine and the log; the move refuses a destination at which a file or a directory exists |
| Quarantine.FileStore.DeleteFromQuarantine | app.js:327-336 | the delete route performs `DeleteStep` on the quarantine and the log |
| Quarantine.QuarantineOpsTouchOnlyName | app.js:327-349 | restore succeeds exactly when the name is quarantined, no file and no directory of that name is at the tree's root and the filesystem does not fail; delete exactly when the name is quarantined and the filesystem does not fail; on success the name leaves the quarantine and exactly one `FILE_RESTORED_FROM_QUARANTINE` or `FILE_DELETED_FROM_QUARANTINE` row is appended with its paths; restore changes no path of the tree but its destination, delete leaves the tree alone, neither changes a directory or another quarantined name, and a failure changes nothing |
| Quarantine.RestoreLandsAtRoot | app.js:340-343 | a file quarantined from a subdirectory and restored by name, with no file or directory of that name at the tree's root and none in the quarantine, lands at the tree's root; its original path stays empty and the subdirectory stays |
| Quarantine.RestoreIntoLeftDirectoryThrows | app.js:339-349 | a file quarantined out of a subdirectory of its own name (`root/name/name`) cannot be restored: that directory is still at the root, so the move throws and nothing changes |
| Quarantine.OpsKeepDirsCover | app.js:327-349 | scanning, quarantining, restoring a bare name and deleting keep every file's enclosing directories among the tree's directories |
| Backups.ParseInterval | app.js:295-296 | only "6h" and "24h" are accepted, and an accepted interval's tag is the string given |
| Backups.SanitizeTimestamp | app.js:223 | every colon and dot becomes a dash, every other character is kept, and the length is unchanged |
| Backups.SanitizeIdempotent | app.js:223 | sanitising twice is sanitising once |
| Backups.SanitizeConcat | app.js:223 | sanitising works character by character, so it distributes over concatenation |
| Backups.SnapshotName | app.js:224 | a snapshot name starts with its tier's prefix, followed by the sanitised timestamp |
| Backups.TierPrefixesExclusive | app.js:246 | no name starts with both `backup_6h_` and `backup_24h_` |
| Backups.SnapshotNameTells | app.js:224 | a snapshot name has the prefix of its own tier only, and two names of one tier are equal exactly when their sanitised timestamps are |
| Backups.WithPrefix | app.js:246 | the filter keeps exactly the listed names that start with the prefix |
| Backups.Greatest | app.js:249-250 | the first name after sorting and reversing is one of the names |
| Backups.GreatestIsMax | app.js:249-250 | every name sorts at or before that one |
| Backups.LatestNameSelects | app.js:243-250 | the latest snapshot is absent exactly when no listed name has the tier's prefix; otherwise it is a listed name of that tier, never of the other tier, and every listed name of the tier sorts at or before it |
| Backups.BackupStore.GetLatestBackup | app.js:243-255 | `getLatestBackup` performs `LatestStep`: the latest snapshot over the listing, or `null` with one `GET_LATEST_BACKUP_ERROR` row when `readdir` fails |
| Backups.BackupStore.IncrementalBackup | app.js:222-240 | `incrementalBackup` performs `BackupStep` on the directory and the log, returns the link-dest it hands to `rsync`, and keeps names distinct |
| Backups.BackupOutcome | app.js:222-240 | a run settles exactly when `ensureDir` and `rsync` succeed, and then returns the new snapshot's path; it writes one `BACKUP_COMPLETE` or one `BACKUP_ERROR` row, plus one `GET_LATEST_BACKUP_ERROR` row when the listing fails; the directory gains the new snapshot and nothing else |
| Backups.LinkDestIsNewSnapshot | app.js:227-229 | as written, whenever the new name sorts at or after every earlier snapshot of its tier, the link-dest is the new snapshot itself |
| Backups.LinkDestExample | app.js:223-231 | two 6-hour runs at 00:00 and 06:00 on one day: the second run's link-dest is its own directory, not the first snapshot |
| Backups.IntendedLinkDestIsPrevious | app.js:227-228 | with the lookup done before `ensureDir`, the link-dest of a new snapshot is the latest earlier snapshot of its tier, never the new one, and is absent only when there is none; everything else is as written |
| Backups.ExpiryByTier | app.js:267-273 | a `backup_6h_` entry expires exactly when older than 7 days, a `backup_24h_` entry exactly when older than 30 days, and any other name never |
| Backups.SurvivorsSpec | app.js:262-273 | an entry survives the walk exactly when it was listed and has not expired |
| Backups.FirstHaltSpec | app.js:262-277 | the walk passes every entry before the point where it throws, throws there unless it reached the end, and throws no later than the first filesystem failure |
| Backups.SweepNeverRemovesSnapshots | app.js:262-277 | as written, over a directory of snapshot directories the sweep removes nothing and writes no `OLD_BACKUP_DELETED` row; it writes one `BACKUP_CLEANUP_ERROR` row exactly when some snapshot has expired or the filesystem fails |
| Backups.SweepKeepsExpiredSnapshot | app.js:222-277 | a 6-hour snapshot made by a backup run is still there when the sweep runs eight days later, and the sweep writes only `BACKUP_CLEANUP_ERROR` |
| Backups.SweepAsWrittenOnPlainFiles | app.js:262-277 | where no expired entry is a directory, the sweep as written is the intended sweep |
| Backups.SweepDeletesExactlyExpired | app.js:262-274 | the intended sweep, when nothing fails, deletes exactly the expired entries, snapshots included, and keeps every other entry |
| Backups.SweepRowsPerDeletion | app.js:258-278 | as written and as intended, the sweep writes one `OLD_BACKUP_DELETED` row per removed entry and one `BACKUP_CLEANUP_ERROR` row exactly when the listing fails or the walk throws; as written it throws at the first failing entry or expired directory, as intended only where the filesystem fails |
| Backups.SweepFailureLeavesRest | app.js:275-277 | a sweep whose walk throws at an entry ends with the `BACKUP_CLEANUP_ERROR` row and leaves that entry and every later one untouched at the end of the listing |
| Backups.SweepLogCount | app.js:267-273 | during the walk, the `OLD_BACKUP_DELETED` rows written equal the entries removed, and no row of another type is written |
| Backups.UnlinkStep | app.js:268 | unlinking the current entry mid-sweep removes exactly that entry from the directory |
| Backups.SweepKeepsNamesDistinct | app.js:262-273 | the directory keeps its names distinct throughout the sweep |
| Backups.BackupStore.Unlink | app.js:267-272 | `fs.unlink` on an expired entry succeeds exactly when it is not a directory; it then removes the entry and writes its `OLD_BACKUP_DELETED` row with the entry's full path, and otherwise changes nothing |
| Backups.BackupStore.SweepEntry | app.js:263-273 | one pass of the loop throws exactly when the entry's `stat` fails or it is an expired directory, and then changes nothing; otherwise it takes the directory and the log from `i` handled entries to `i + 1` |
| Backups.BackupStore.CleanupOldBackups | app.js:258-278 | `cleanupOldBackups` performs `CleanupStep` on the directory and the log, and keeps names distinct |

## Left out

- Module loading is left out. As written, app.js:19 reads
  `PUBLIC_HTML_DIR` before its `const` declaration at app.js:30. Reading
  a `const` before its declaration throws a `ReferenceError`, so the
  module stops loading there and registers no route. The model treats
  the core functions as if the module had loaded, that is, as if line 19
  came after line 30.
- The HTTP layer is left out: Express routing, body parsing, status codes,
  static serving and the `/config` route. The routes are modelled only
  through the operations they call. The missing-`ip` 400 checks are left
  out as well.
- SQLite is modelled as sets and sequences. A failing database write is
  not modelled, so memory and storage stay equal. The `id` and
  `timestamp` columns are left out. `LastOf` uses the row's position in
  place of `ORDER BY timestamp DESC`.
- Details that carry an `error.message` or a service answer keep only
  their fixed fields. For example, `BACKUP_ERROR` keeps `interval` and
  `VIRUSTOTAL_CHECK` keeps `fileHash`.
- The HTTP calls to VirusTotal and AbuseIPDB are answer parameters:
  `Reply`.
- ClamAV initialisation, its `CLAMAV_INIT` rows and the scan itself are
  left out. The scan's report is a parameter.
- `rsync` is only succeed-or-fail. The contents it copies, and the hard
  links `--link-dest` would create, are not modelled.
- `calculateFileHash` (SHA-256) is left out. `checkFileWithVirusTotal`
  takes the hash as a string.
- Timers, the start-up sequence, signal handlers and overlapping timer runs
  are left out. The `INITIAL_SCAN_COMPLETE` and `DAILY_SCAN_COMPLETE` rows
  written by the scheduler are left out too.
- `daily` (500) of each service is never consulted by the source, so it is
  only recorded.
- Paths.Join: it does not model `path.join`'s normalisation (`..`, `.`,
  repeated slashes). Directories are taken without a trailing slash.
- Paths.LexLeTotal: the sort compares UTF-16 code units, while the
  model compares characters. The two orders agree on the ASCII names used
  here.
- Quarantine.HandleStep: apart from an existing destination or a missing
  source, whether `fsExtra.move` succeeds is a parameter (`fault`).
- `GET /quarantine` (app.js:317-324) is `FileStore.Listing`, the names in
  the quarantine. It promises nothing beyond that, so it has no row.
- Quarantine.RestoreStep and Quarantine.DeleteStep: the route's name is
  taken as a bare file name. A name carrying path segments could escape
  the quarantine or the served tree, and that is not modelled.
- Quarantine.Files: the tree's directories are a set that no operation
  here changes. The model does not track what is inside a directory
  beyond the files of the tree.
- Backups.CleanupStep: `fs.unlink` is modelled as refusing directories
  and accepting plain files. Every other failure of `stat` or `unlink`
  comes through `failAt`. Ages are integer milliseconds compared with
  `7 * 86400000` and `30 * 86400000`, not floating-point days.
- Backups.BackupStep: the timestamp is an input string, not a clock
  reading. A repeated name (two runs in the same millisecond) reuses the
  existing entry. A new snapshot is given the run's time as its
  modification time, while `rsync -a` (app.js:231) copies the source
  root's time onto it. The age the sweep computes is therefore the run's
  age in the model, not the source root's age.

## Findings

| source | as written | input that shows it | evidently intended | confidence | as-written member | corrected member |
|---|---|---|---|---|---|---|
| app.js:227-228 | `getLatestBackup` runs after `ensureDir(backupPath)`, so the listing it sorts already holds the new, empty snapshot. Whenever the new name sorts last (as a later ISO timestamp does), `--link-dest` names the new snapshot itself, so `rsync` hard-links nothing against the previous snapshot and every snapshot is a full copy | a directory holding `backup_6h_2024-05-01T00-00-00-000Z` and a 6-hour run at `2024-05-01T06:00:00.000Z`: the link-dest is `backup_6h_2024-05-01T06-00-00-000Z` | look up the latest snapshot before creating the new directory, so `--link-dest` names the previous snapshot of the tier | not executed | Backups.LinkDestIsNewSnapshot | Backups.IntendedLinkDestIsPrevious |
| app.js:267-272 | `cleanupOldBackups` passes each expired entry to `fs.unlink`. The entries are the snapshot directories made by `ensureDir` (app.js:227), and `unlink` refuses a directory. The walk therefore throws at the first expired snapshot, the catch writes `BACKUP_CLEANUP_ERROR`, and no snapshot is ever deleted | a 6-hour snapshot made by a backup run, swept eight days later: it stays, and the only row written is `BACKUP_CLEANUP_ERROR` | remove each expired snapshot recursively (for example `fsExtra.remove`), so that snapshots older than the retention period are deleted | not executed | Backups.SweepNeverRemovesSnapshots | Backups.SweepDeletesExactlyExpired |

=== FILE: audit.dfy ===
/** The `logs` table: an append-only audit trail of `(event_type,
    details)` rows written by `addLog`, and the statistics the dashboard
    reads from it. */
module AuditTrail {
  import opened Outcomes
  import opened Paths

  /** The event types the core writes. */
  datatype Event =
    | IpBlocked
    | IpUnblocked
    | ApiLimitReached
    | VirusTotalCheck
    | VirusTotalError
    | AbuseIpdbCheck
    | AbuseIpdbError
    | FileQuarantined
    | FileQuarantineError
    | DirectoryScanComplete
    | DirectoryScanError
    | BackupComplete
    | BackupError
    | GetLatestBackupError
    | OldBackupDeleted
    | BackupCleanupError
    | FileDeletedFromQuarantine
    | FileRestoredFromQuarantine
  {
    /** The text stored in the `event_type` column. */
    function Name(): string
    {
      match this
      case IpBlocked => "IP_BLOCKED"
      case IpUnblocked => "IP_UNBLOCKED"
      case ApiLimitReached => "API_LIMIT_REACHED"
      case VirusTotalCheck => "VIRUSTOTAL_CHECK"
      case VirusTotalError => "VIRUSTOTAL_ERROR"
      case AbuseIpdbCheck => "ABUSEIPDB_CHECK"
      case AbuseIpdbError => "ABUSEIPDB_ERROR"
      case FileQuarantined => "FILE_QUARANTINED"
      case FileQuarantineError => "FILE_QUARANTINE_ERROR"
      case DirectoryScanComplete => "DIRECTORY_SCAN_COMPLETE"
      case DirectoryScanError => "DIRECTORY_SCAN_ERROR"
      case BackupComplete => "BACKUP_COMPLETE"
      case BackupError => "BACKUP_ERROR"
      case GetLatestBackupError => "GET_LATEST_BACKUP_ERROR"
      case OldBackupDeleted => "OLD_BACKUP_DELETED"
      case BackupCleanupError => "BACKUP_CLEANUP_ERROR"
      case FileDeletedFromQuarantine => "FILE_DELETED_FROM_QUARANTINE"
      case FileRestoredFromQuarantine => "FILE_RESTORED_FROM_QUARANTINE"
    }
  }

  /** Distinct events are stored under distinct `event_type` texts, so
      the `/stats` queries that select rows by that text select exactly the
      rows of one event. */
  lemma NamesDistinct(a: Event, b: Event)
    ensures a.Name() == b.Name() <==> a == b
  {
  }

  /** The `details` column, an object serialised with `JSON.stringify`.
      Error messages and service answers come from collaborators and are
      not kept. */
  datatype Details =
    | IpDetails(ip: string)
    | ApiDetails(api: string)
    | HashDetails(fileHash: string)
    | QuarantineDetails(filePath: Path, quarantineFilePath: Path, virusName: Option<string>)
    | FileDetails(filePath: Path)
    | RestoreDetails(quarantineFilePath: Path, restoreFilePath: Path)
    | ScanDetails(directory: Path, isInfected: bool)
    | DirectoryDetails(directory: Path)
    | BackupDetails(interval: string, backupPath: Path)
    | IntervalDetails(interval: string)
    | NoDetails

  /** One row of `logs`; its `id` is its position in the sequence and its
      timestamp is the database clock, which the model leaves out. */
  datatype Entry = Entry(event: Event, details: Details)

  /** The number of rows of the given event type. */
  function CountOf(log: seq<Entry>, e: Event): (n: nat)
    ensures n <= |log|
  {
    if log == [] then 0
    else CountOf(log[..|log| - 1], e) + (if log[|log| - 1].event == e then 1 else 0)
  }

  /** The count is zero exactly when no row has that event type. */
  lemma {:induction false} CountOfZero(log: seq<Entry>, e: Event)
    ensures CountOf(log, e) == 0 <==> forall i :: 0 <= i < |log| ==> log[i].event != e
  {
    if log != [] {
      CountOfZero(log[..|log| - 1], e);
    }
  }

  /** Counting distributes over appending rows. */
  lemma {:induction false} CountOfConcat(a: seq<Entry>, b: seq<Entry>, e: Event)
    ensures CountOf(a + b, e) == CountOf(a, e) + CountOf(b, e)
  {
    if b == [] {
      assert a + b == a;
    } else {
      assert (a + b)[..|a + b| - 1] == a + b[..|b| - 1];
      CountOfConcat(a, b[..|b| - 1], e);
    }
  }

  /** The position of the most recent row of the given event type. */
  function LastOf(log: seq<Entry>, e: Event): (r: Option<nat>)
    ensures r.None? <==> CountOf(log, e) == 0
    ensures r.Some? ==> r.value < |log| && log[r.value].event == e
    ensures r.Some? ==> forall j :: r.value < j < |log| ==> log[j].event != e
  {
    if log == [] then None
    else if log[|log| - 1].event == e then Some(|log| - 1)
    else LastOf(log[..|log| - 1], e)
  }

  /** What the `/stats` endpoint reports. */
  datatype Stats = Stats(totalScans: nat, totalInfectedFiles: nat, totalBlockedIPs: nat, lastScan: Option<nat>)

  /** The statistics over the log and the in-memory block list: completed
      scans, quarantined files, blocked addresses and the row of the last
      completed scan. */
  function GetStats(log: seq<Entry>, blocked: set<string>): (s: Stats)
    ensures s.totalScans == CountOf(log, DirectoryScanComplete) && s.totalScans <= |log|
    ensures s.totalInfectedFiles == CountOf(log, FileQuarantined) && s.totalInfectedFiles <= |log|
    ensures s.totalBlockedIPs == |blocked|
    ensures s.lastScan.None? <==> s.totalScans == 0
    ensures s.lastScan.Some? ==> s.lastScan.value < |log| && log[s.lastScan.value].event == DirectoryScanComplete
    ensures s.lastScan.Some? ==> forall j :: s.lastScan.value < j < |log| ==> log[j].event != DirectoryScanComplete
  {
    Stats(CountOf(log, DirectoryScanComplete), CountOf(log, FileQuarantined), |blocked|,
          LastOf(log, DirectoryScanComplete))
  }

  /** The `logs` table itself. Rows are only ever appended. */
  class AuditLog {
    var entries: seq<Entry>

    constructor ()
      ensures entries == []
    {
      entries := [];
    }

    /** `addLog(eventType, details)`: appends exactly one row. */
    method Add(event: Event, details: Details)
      modifies this
      ensures entries == old(entries) + [Entry(event, details)]
    {
      entries := entries + [Entry(event, details)];
    }
  }
}

=== FILE: backups.dfy ===
/** Snapshot backups of the served tree (app.js:222-278): snapshot names
    `backup_<interval>_<timestamp>`, the choice of the latest snapshot of a
    tier that `rsync --link-dest` is pointed at, and the retention sweep
    that is meant to delete expired snapshots. The backup directory is a
    sequence of `(name, mtime, isDir)` entries in listing order; `ensureDir`,
    `readdir`, `stat`, `unlink` and `rsync` succeed or fail as oracle
    parameters say, except that `unlink` always refuses a directory. */
module Backups {
  import opened Outcomes
  import opened Paths
  import opened AuditTrail

  /** The two snapshot schedules. */
  datatype Interval = SixHours | Daily
  {
    /** The interval as written in requests, names and log rows. */
    function Tag(): string
    {
      match this
      case SixHours => "6h"
      case Daily => "24h"
    }
  }

  /** The check of `POST /backup`: only "6h" and "24h" are accepted. */
  function ParseInterval(s: string): (r: Option<Interval>)
    ensures r.Some? <==> s == "6h" || s == "24h"
    ensures r.Some? ==> r.value.Tag() == s
  {
    if s == "6h" then Some(SixHours) else if s == "24h" then Some(Daily) else None
  }

  /** `toISOString().replace(/[:.]/g, '-')`: every colon and dot becomes a
      dash and every other character is kept. */
  function SanitizeTimestamp(ts: string): (r: string)
    ensures |r| == |ts|
    ensures forall i :: 0 <= i < |r| ==> r[i] != ':' && r[i] != '.'
    ensures forall i :: 0 <= i < |ts| && ts[i] != ':' && ts[i] != '.' ==> r[i] == ts[i]
    ensures forall i :: 0 <= i < |ts| && (ts[i] == ':' || ts[i] == '.') ==> r[i] == '-'
  {
    if ts == [] then []
    else
      var c := ts[|ts| - 1];
      SanitizeTimestamp(ts[..|ts| - 1]) + [if c == ':' || c == '.' then '-' else c]
  }

  /** Sanitising a sanitised timestamp changes nothing. */
  lemma SanitizeIdempotent(ts: string)
    ensures SanitizeTimestamp(SanitizeTimestamp(ts)) == SanitizeTimestamp(ts)
  {
    var r := SanitizeTimestamp(ts);
    var rr := SanitizeTimestamp(r);
    assert forall i :: 0 <= i < |r| ==> rr[i] == r[i];
  }

  /** `backup_<interval>_`, the prefix of a tier's snapshot names. */
  function TierPrefix(interval: Interval): string
  {
    "backup_" + interval.Tag() + "_"
  }

  /** The name of the snapshot taken at `isoTime`. */
  function SnapshotName(interval: Interval, isoTime: string): (name: string)
    ensures StartsWith(name, TierPrefix(interval))
    ensures name[|TierPrefix(interval)|..] == SanitizeTimestamp(isoTime)
  {
    TierPrefix(interval) + SanitizeTimestamp(isoTime)
  }

  /** No name starts with both tiers' prefixes: `backup_6h_` and
      `backup_24h_` differ at their eighth character. */
  lemma TierPrefixesExclusive(s: string, a: Interval, b: Interval)
    ensures StartsWith(s, TierPrefix(a)) && StartsWith(s, TierPrefix(b)) ==> a == b
  {
    assert TierPrefix(a)[7] == a.Tag()[0];
    assert TierPrefix(b)[7] == b.Tag()[0];
    if StartsWith(s, TierPrefix(a)) && StartsWith(s, TierPrefix(b)) {
      assert s[7] == TierPrefix(a)[7] == TierPrefix(b)[7];
    }
  }

  /** A snapshot's name tells its tier, and two snapshots of one tier have
      the same name only when their sanitised timestamps agree. */
  lemma SnapshotNameTells(interval: Interval, other: Interval, t1: string, t2: string)
    ensures StartsWith(SnapshotName(interval, t1), TierPrefix(other)) <==> other == interval
    ensures SnapshotName(interval, t1) == SnapshotName(interval, t2) <==> SanitizeTimestamp(t1) == SanitizeTimestamp(t2)
  {
    TierPrefixesExclusive(SnapshotName(interval, t1), interval, other);
  }

  /** `files.filter(file => file.startsWith(prefix))`. */
  function WithPrefix(names: seq<string>, prefix: string): (r: seq<string>)
    ensures forall x :: x in r <==> x in names && StartsWith(x, prefix)
  {
    if names == [] then []
    else
      var rest := WithPrefix(names[..|names| - 1], prefix);
      var last := names[|names| - 1];
      assert names == names[..|names| - 1] + [last];
      if StartsWith(last, prefix) then rest + [last] else rest
  }

  /** `xs.sort().reverse()[0]`: the name that sorts last. */
  function Greatest(xs: seq<string>): (g: string)
    requires xs != []
    ensures g in xs
  {
    if |xs| == 1 then xs[0]
    else
      var g := Greatest(xs[..|xs| - 1]);
      if LexLe(g, xs[|xs| - 1]) then xs[|xs| - 1] else g
  }

  /** Every listed name sorts at or before the chosen one. */
  lemma {:induction false} GreatestIsMax(xs: seq<string>, x: string)
    requires x in xs
    ensures LexLe(x, Greatest(xs))
  {
    if |xs| == 1 {
      LexLeReflexive(x);
    } else {
      var init := xs[..|xs| - 1];
      var last := xs[|xs| - 1];
      assert xs == init + [last];
      var g := Greatest(init);
      LexLeTotal(g, last);
      if x in init {
        GreatestIsMax(init, x);
        if LexLe(g, last) {
          LexLeTransitive(x, g, last);
        }
      } else {
        assert x == last;
        LexLeReflexive(last);
      }
    }
  }

  /** The core of `getLatestBackup`: the name of the tier's snapshot that
      sorts last, if the listing holds any. */
  function LatestName(names: seq<string>, interval: Interval): Option<string>
  {
    var backups := WithPrefix(names, TierPrefix(interval));
    if backups == [] then None else Some(Greatest(backups))
  }

  /** `path.join(backupDir, latest)`, or `null`. */
  function LatestBackup(backupDir: Path, names: seq<string>, interval: Interval): Option<Path>
  {
    match LatestName(names, interval)
    case None => None
    case Some(name) => Some(Join(backupDir, name))
  }

  /** The latest snapshot is absent exactly when no listed name has the
      tier's prefix; otherwise it is a listed name of that tier, never of
      the other tier, and every listed name of the tier sorts at or before
      it. */
  lemma LatestNameSelects(names: seq<string>, interval: Interval)
    ensures var r := LatestName(names, interval);
      && (r.None? <==> forall x :: x in names ==> !StartsWith(x, TierPrefix(interval)))
      && (r.Some? ==> r.value in names && StartsWith(r.value, TierPrefix(interval)))
      && (r.Some? ==> forall x :: x in names && StartsWith(x, TierPrefix(interval)) ==> LexLe(x, r.value))
      && (r.Some? ==> forall other :: StartsWith(r.value, TierPrefix(other)) ==> other == interval)
  {
    var backups := WithPrefix(names, TierPrefix(interval));
    var r := LatestName(names, interval);
    if backups != [] {
      assert backups[0] in backups;
      forall x | x in names && StartsWith(x, TierPrefix(interval))
        ensures LexLe(x, r.value)
      {
        GreatestIsMax(backups, x);
      }
      forall other | StartsWith(r.value, TierPrefix(other))
        ensures other == interval
      {
        TierPrefixesExclusive(r.value, interval, other);
      }
    }
  }

  /** One entry of the backup directory: a name, its modification time in
      milliseconds, and whether it is a directory (as every snapshot is). */
  datatype BackupEntry = BackupEntry(name: string, mtime: int, isDir: bool)

  /** What `readdir` lists: the entries' names, in order. */
  function Names(entries: seq<BackupEntry>): (names: seq<string>)
    ensures |names| == |entries|
    ensures forall i :: 0 <= i < |entries| ==> names[i] == entries[i].name
  {
    seq(|entries|, i requires 0 <= i < |entries| => entries[i].name)
  }

  /** A directory lists each name once. */
  predicate DistinctNames(entries: seq<BackupEntry>)
  {
    forall i, j :: 0 <= i < j < |entries| ==> entries[i].name != entries[j].name
  }

  /** The backup directory and the audit log. */
  datatype BackupState = BackupState(entries: seq<BackupEntry>, log: seq<Entry>)

  /** `fsExtra.ensureDir(path.join(backupDir, name))`: a directory entry is
      created with the current time unless the name exists. */
  function EnsureDir(entries: seq<BackupEntry>, name: string, now: int): seq<BackupEntry>
  {
    if name in Names(entries) then entries else entries + [BackupEntry(name, now, true)]
  }

  /** The answer of `getLatestBackup` and the log it leaves. */
  datatype Lookup = Lookup(latest: Option<Path>, log: seq<Entry>)

  /** `getLatestBackup(backupDir, interval)` over the given listing; when
      `readdir` fails (`listOk` false) one `GET_LATEST_BACKUP_ERROR` row is
      written and the answer is `null`. */
  function LatestStep(entries: seq<BackupEntry>, log: seq<Entry>, backupDir: Path, interval: Interval, listOk: bool): Lookup
  {
    if listOk then Lookup(LatestBackup(backupDir, Names(entries), interval), log)
    else Lookup(None, log + [Entry(GetLatestBackupError, IntervalDetails(interval.Tag()))])
  }

  /** A backup run: the state it leaves, the `--link-dest` handed to
      `rsync` (none when the run stopped before) and its settlement. */
  datatype BackupRun = BackupRun(state: BackupState, linkDest: Option<Path>, result: Outcome<Path>)

  /** The end of a backup run once the snapshot directory exists and the
      latest snapshot has been looked up: `rsync` either succeeds, and one
      `BACKUP_COMPLETE` row is written and the path returned, or fails, and
      one `BACKUP_ERROR` row is written and the error rethrown. */
  function FinishBackup(entries: seq<BackupEntry>, lookup: Lookup, backupDir: Path, interval: Interval, isoTime: string, rsyncOk: bool): BackupRun
  {
    var path := Join(backupDir, SnapshotName(interval, isoTime));
    if rsyncOk then
      BackupRun(BackupState(entries, lookup.log + [Entry(BackupComplete, BackupDetails(interval.Tag(), path))]), lookup.latest, Resolved(path))
    else
      BackupRun(BackupState(entries, lookup.log + [Entry(BackupError, IntervalDetails(interval.Tag()))]), lookup.latest, Thrown)
  }

  /** `incrementalBackup(sourceDir, backupDir, interval)` as written: the
      snapshot directory is created first and the latest snapshot is looked
      up afterwards, in the listing that already holds it. A failing
      `ensureDir` writes one `BACKUP_ERROR` row and rethrows. */
  function BackupStep(s: BackupState, backupDir: Path, interval: Interval, isoTime: string, now: int,
                      ensureOk: bool, listOk: bool, rsyncOk: bool): BackupRun
  {
    if !ensureOk then
      BackupRun(s.(log := s.log + [Entry(BackupError, IntervalDetails(interval.Tag()))]), None, Thrown)
    else
      var entries := EnsureDir(s.entries, SnapshotName(interval, isoTime), now);
      FinishBackup(entries, LatestStep(entries, s.log, backupDir, interval, listOk), backupDir, interval, isoTime, rsyncOk)
  }

  /** A backup run settles exactly when the directory is created and
      `rsync` succeeds, and then returns the new snapshot's path; it writes
      one `BACKUP_COMPLETE` row when it settles and one `BACKUP_ERROR` row
      when it throws, plus one `GET_LATEST_BACKUP_ERROR` row when the
      listing fails. The directory gains the new snapshot (unless it
      existed), as a directory, and nothing else, and keeps its names
      distinct. */
  lemma BackupOutcome(s: BackupState, backupDir: Path, interval: Interval, isoTime: string, now: int,
                      ensureOk: bool, listOk: bool, rsyncOk: bool)
    ensures var run := BackupStep(s, backupDir, interval, isoTime, now, ensureOk, listOk, rsyncOk);
      && (run.result.Resolved? <==> ensureOk && rsyncOk)
      && (run.result.Resolved? ==> run.result.value == Join(backupDir, SnapshotName(interval, isoTime)))
      && |run.state.log| == |s.log| + (if ensureOk && !listOk then 2 else 1)
      && run.state.log[..|s.log|] == s.log
      && run.state.log[|run.state.log| - 1].event == (if run.result.Resolved? then BackupComplete else BackupError)
      && (ensureOk && !listOk ==> run.state.log[|s.log|].event == GetLatestBackupError)
      && (ensureOk ==> SnapshotName(interval, isoTime) in Names(run.state.entries))
      && |run.state.entries| >= |s.entries| && run.state.entries[..|s.entries|] == s.entries
      && (forall x :: x in Names(run.state.entries) ==> x in Names(s.entries) || (ensureOk && x == SnapshotName(interval, isoTime)))
      && (forall k :: |s.entries| <= k < |run.state.entries| ==> run.state.entries[k].isDir)
      && (DistinctNames(s.entries) ==> DistinctNames(run.state.entries))
  {
    var name := SnapshotName(interval, isoTime);
    if ensureOk && name !in Names(s.entries) {
      var entries := s.entries + [BackupEntry(name, now, true)];
      assert entries[..|s.entries|] == s.entries;
      assert Names(entries) == Names(s.entries) + [name];
    }
  }

  /** FINDING, as written: whenever the new snapshot's name sorts at or
      after every earlier snapshot of its tier (as the ISO timestamp of a
      later run does), the `--link-dest` of the run is the new, empty
      snapshot itself, so nothing is hard-linked against the previous
      snapshot. */
  lemma LinkDestIsNewSnapshot(s: BackupState, backupDir: Path, interval: Interval, isoTime: string, now: int, rsyncOk: bool)
    requires forall x :: x in Names(s.entries) && StartsWith(x, TierPrefix(interval)) ==> LexLe(x, SnapshotName(interval, isoTime))
    ensures BackupStep(s, backupDir, interval, isoTime, now, true, true, rsyncOk).linkDest
            == Some(Join(backupDir, SnapshotName(interval, isoTime)))
  {
    var name := SnapshotName(interval, isoTime);
    var entries := EnsureDir(s.entries, name, now);
    if name !in Names(s.entries) {
      assert Names(entries) == Names(s.entries) + [name];
    }
    assert name in Names(entries);
    LatestNameSelects(Names(entries), interval);
    var r := LatestName(Names(entries), interval);
    assert LexLe(name, r.value);
    assert r.value in Names(s.entries) || r.value == name;
    LexLeAntisymmetric(name, r.value);
  }

  /** Sanitising works character by character, so it distributes over
      concatenation. */
  lemma SanitizeConcat(a: string, b: string)
    ensures SanitizeTimestamp(a + b) == SanitizeTimestamp(a) + SanitizeTimestamp(b)
  {
    var l := SanitizeTimestamp(a + b);
    var r := SanitizeTimestamp(a) + SanitizeTimestamp(b);
    forall i | 0 <= i < |l|
      ensures l[i] == r[i]
    {
      if i < |a| {
        assert (a + b)[i] == a[i];
      } else {
        assert (a + b)[i] == b[i - |a|];
      }
    }
  }

  /** The snapshot names of two runs six hours apart on one day sort in
      time order and differ. */
  lemma ExampleNamesOrdered(day: string, a: string, b: string)
    requires day == "2024-05-01T0" && a == "0:00:00.000Z" && b == "6:00:00.000Z"
    ensures LexLe(SnapshotName(SixHours, day + a), SnapshotName(SixHours, day + b))
    ensures SnapshotName(SixHours, day + a) != SnapshotName(SixHours, day + b)
  {
    SanitizeConcat(day, a);
    SanitizeConcat(day, b);
    var p := TierPrefix(SixHours) + SanitizeTimestamp(day);
    var sa, sb := SanitizeTimestamp(a), SanitizeTimestamp(b);
    assert sa[0] == '0' && sb[0] == '6';
    LexLeCommonPrefix(p, sa, sb);
    assert SnapshotName(SixHours, day + a) == p + sa;
    assert SnapshotName(SixHours, day + b) == p + sb;
    assert (p + sa)[|p|] != (p + sb)[|p|];
  }

  /** Two 6-hour snapshots six hours apart: the second run's link-dest is
      its own directory, not the first snapshot. */
  lemma LinkDestExample(backupDir: Path, t0: int, now: int)
    ensures var first := BackupEntry(SnapshotName(SixHours, "2024-05-01T00:00:00.000Z"), t0, true);
      var run := BackupStep(BackupState([first], []), backupDir, SixHours, "2024-05-01T06:00:00.000Z", now, true, true, true);
      && run.linkDest == Some(Join(backupDir, SnapshotName(SixHours, "2024-05-01T06:00:00.000Z")))
      && run.linkDest != Some(Join(backupDir, first.name))
  {
    var day, a, b := "2024-05-01T0", "0:00:00.000Z", "6:00:00.000Z";
    assert "2024-05-01T00:00:00.000Z" == day + a;
    assert "2024-05-01T06:00:00.000Z" == day + b;
    ExampleNamesOrdered(day, a, b);
    var first := BackupEntry(SnapshotName(SixHours, day + a), t0, true);
    var name := SnapshotName(SixHours, day + b);
    assert Names([first]) == [first.name];
    LinkDestIsNewSnapshot(BackupState([first], []), backupDir, SixHours, day + b, now, true);
    JoinInjective(backupDir, name, first.name);
  }

  /** The evidently intended run: the latest snapshot is looked up before
      the new directory is created. */
  function IntendedBackupStep(s: BackupState, backupDir: Path, interval: Interval, isoTime: string, now: int,
                              ensureOk: bool, listOk: bool, rsyncOk: bool): BackupRun
  {
    if !ensureOk then
      BackupRun(s.(log := s.log + [Entry(BackupError, IntervalDetails(interval.Tag()))]), None, Thrown)
    else
      var entries := EnsureDir(s.entries, SnapshotName(interval, isoTime), now);
      FinishBackup(entries, LatestStep(s.entries, s.log, backupDir, interval, listOk), backupDir, interval, isoTime, rsyncOk)
  }

  /** In the intended run the `--link-dest` of a new snapshot is the latest
      earlier snapshot of its tier, never the new snapshot itself, and is
      absent only when there is no earlier one; everything else is as in
      the run as written. */
  lemma IntendedLinkDestIsPrevious(s: BackupState, backupDir: Path, interval: Interval, isoTime: string, now: int,
                                   ensureOk: bool, listOk: bool, rsyncOk: bool)
    requires SnapshotName(interval, isoTime) !in Names(s.entries)
    ensures var run := IntendedBackupStep(s, backupDir, interval, isoTime, now, ensureOk, listOk, rsyncOk);
      var asWritten := BackupStep(s, backupDir, interval, isoTime, now, ensureOk, listOk, rsyncOk);
      && run.state == asWritten.state && run.result == asWritten.result
      && run.linkDest != Some(Join(backupDir, SnapshotName(interval, isoTime)))
      && (ensureOk && listOk ==>
            run.linkDest == LatestBackup(backupDir, Names(s.entries), interval)
            && (run.linkDest.None? <==> forall x :: x in Names(s.entries) ==> !StartsWith(x, TierPrefix(interval))))
  {
    var name := SnapshotName(interval, isoTime);
    LatestNameSelects(Names(s.entries), interval);
    var r := LatestName(Names(s.entries), interval);
    if r.Some? {
      JoinInjective(backupDir, r.value, name);
    }
  }

  /** A day in milliseconds. */
  const DAY_MS: int := 1000 * 60 * 60 * 24

  /** The retention rule of `cleanupOldBackups`: a `backup_6h_` entry older
      than 7 days, or else a `backup_24h_` entry older than 30 days. */
  predicate Expired(e: BackupEntry, now: int)
  {
    if StartsWith(e.name, TierPrefix(SixHours)) && now - e.mtime > 7 * DAY_MS then true
    else StartsWith(e.name, TierPrefix(Daily)) && now - e.mtime > 30 * DAY_MS
  }

  /** Per tier: a 6-hour snapshot expires exactly when older than 7 days, a
      daily one exactly when older than 30 days, and any other name never. */
  lemma ExpiryByTier(e: BackupEntry, now: int)
    ensures StartsWith(e.name, TierPrefix(SixHours)) ==> (Expired(e, now) <==> now - e.mtime > 7 * DAY_MS)
    ensures StartsWith(e.name, TierPrefix(Daily)) ==> (Expired(e, now) <==> now - e.mtime > 30 * DAY_MS)
    ensures !StartsWith(e.name, TierPrefix(SixHours)) && !StartsWith(e.name, TierPrefix(Daily)) ==> !Expired(e, now)
  {
    TierPrefixesExclusive(e.name, SixHours, Daily);
  }

  /** The first `n` listed entries that the sweep keeps, in order. */
  function Survivors(files: seq<BackupEntry>, now: int, n: nat): (kept: seq<BackupEntry>)
    requires n <= |files|
    ensures |kept| <= n
  {
    if n == 0 then []
    else Survivors(files, now, n - 1) + (if Expired(files[n - 1], now) then [] else [files[n - 1]])
  }

  /** The row the sweep writes for one entry: `OLD_BACKUP_DELETED` with the
      entry's path when it has expired, none otherwise. */
  function DeletedRow(backupDir: Path, e: BackupEntry, now: int): seq<Entry>
  {
    if Expired(e, now) then [Entry(OldBackupDeleted, FileDetails(Join(backupDir, e.name)))] else []
  }

  /** The log after the sweep has handled the first `n` listed entries. */
  function SweepLog(log: seq<Entry>, backupDir: Path, files: seq<BackupEntry>, now: int, n: nat): seq<Entry>
    requires n <= |files|
  {
    if n == 0 then log
    else SweepLog(log, backupDir, files, now, n - 1) + DeletedRow(backupDir, files[n - 1], now)
  }

  /** Whether the sweep's walk throws at the `k`-th listed entry: its
      `stat` or `unlink` fails for an outside reason (`failAt`), or it has
      expired and is a directory, which `fs.unlink` refuses (`EISDIR`). */
  predicate Halts(files: seq<BackupEntry>, now: int, failAt: nat, k: nat)
    requires k < |files|
  {
    k == failAt || (Expired(files[k], now) && files[k].isDir)
  }

  /** Where the walk, resumed at entry `k`, throws; the listing's length
      when it reaches the end. */
  function FirstHalt(files: seq<BackupEntry>, now: int, failAt: nat, k: nat): (m: nat)
    requires k <= |files|
    ensures k <= m <= |files|
    decreases |files| - k
  {
    if k == |files| then k
    else if Halts(files, now, failAt, k) then k
    else FirstHalt(files, now, failAt, k + 1)
  }

  /** The walk passes every entry before the point where it throws, and
      throws at that entry unless it reached the end. */
  lemma {:induction false} FirstHaltSpec(files: seq<BackupEntry>, now: int, failAt: nat, k: nat)
    requires k <= |files|
    ensures forall j :: k <= j < FirstHalt(files, now, failAt, k) ==> !Halts(files, now, failAt, j)
    ensures FirstHalt(files, now, failAt, k) < |files| ==> Halts(files, now, failAt, FirstHalt(files, now, failAt, k))
    ensures k <= failAt < |files| ==> FirstHalt(files, now, failAt, k) <= failAt
    decreases |files| - k
  {
    if k < |files| && !Halts(files, now, failAt, k) {
      FirstHaltSpec(files, now, failAt, k + 1);
    }
  }

  /** The sweep's state when its walk stops after `m` entries: the expired
      entries among them are gone with one `OLD_BACKUP_DELETED` row each,
      and a walk that stops early adds one `BACKUP_CLEANUP_ERROR` row. */
  function SweepUntil(s: BackupState, backupDir: Path, now: int, m: nat): BackupState
    requires m <= |s.entries|
  {
    var w := Swept(s, backupDir, now, m);
    if m < |s.entries| then w.(log := w.log + [Entry(BackupCleanupError, NoDetails)]) else w
  }

  /** The state once the walk has handled the first `m` entries. */
  function Swept(s: BackupState, backupDir: Path, now: int, m: nat): BackupState
    requires m <= |s.entries|
  {
    BackupState(Survivors(s.entries, now, m) + s.entries[m..], SweepLog(s.log, backupDir, s.entries, now, m))
  }

  /** `cleanupOldBackups()` as written: the listing is walked in order and
      each expired entry is passed to `fs.unlink` with one
      `OLD_BACKUP_DELETED` row; the single catch around the walk means the
      first entry at which it throws ends it with one `BACKUP_CLEANUP_ERROR`
      row, as does a failing `readdir`. Every snapshot is a directory, so
      the first expired snapshot ends the walk. */
  function CleanupStep(s: BackupState, backupDir: Path, now: int, listOk: bool, failAt: nat): BackupState
  {
    if !listOk then
      s.(log := s.log + [Entry(BackupCleanupError, NoDetails)])
    else
      SweepUntil(s, backupDir, now, FirstHalt(s.entries, now, failAt, 0))
  }

  /** The evidently intended sweep: each expired snapshot is removed with
      its contents (a recursive removal), so the walk throws only where the
      filesystem fails (`failAt`). */
  function IntendedCleanupStep(s: BackupState, backupDir: Path, now: int, listOk: bool, failAt: nat): BackupState
  {
    if !listOk then
      s.(log := s.log + [Entry(BackupCleanupError, NoDetails)])
    else
      SweepUntil(s, backupDir, now, if failAt < |s.entries| then failAt else |s.entries|)
  }

  /** With none of the first `n` entries expired, the walk over them keeps
      them all and writes nothing. */
  lemma {:induction false} NoneExpiredKeepsAll(log: seq<Entry>, backupDir: Path, files: seq<BackupEntry>, now: int, n: nat)
    requires n <= |files|
    requires forall j :: 0 <= j < n ==> !Expired(files[j], now)
    ensures Survivors(files, now, n) == files[..n]
    ensures SweepLog(log, backupDir, files, now, n) == log
  {
    if n > 0 {
      NoneExpiredKeepsAll(log, backupDir, files, now, n - 1);
      assert files[..n] == files[..n - 1] + [files[n - 1]];
    }
  }

  /** FINDING, as written: over a backup directory of snapshot directories
      the sweep removes nothing and writes no `OLD_BACKUP_DELETED` row;
      instead it writes one `BACKUP_CLEANUP_ERROR` row exactly when some
      snapshot has expired (or the filesystem fails). */
  lemma SweepNeverRemovesSnapshots(s: BackupState, backupDir: Path, now: int, failAt: nat)
    requires forall k :: 0 <= k < |s.entries| ==> s.entries[k].isDir
    ensures var r := CleanupStep(s, backupDir, now, true, failAt);
      && r.entries == s.entries
      && r.log == s.log + (if failAt < |s.entries| || exists k :: 0 <= k < |s.entries| && Expired(s.entries[k], now)
                           then [Entry(BackupCleanupError, NoDetails)] else [])
  {
    var m := FirstHalt(s.entries, now, failAt, 0);
    FirstHaltSpec(s.entries, now, failAt, 0);
    forall j | 0 <= j < m
      ensures !Expired(s.entries[j], now)
    {
      assert !Halts(s.entries, now, failAt, j);
    }
    NoneExpiredKeepsAll(s.log, backupDir, s.entries, now, m);
    assert s.entries[..m] + s.entries[m..] == s.entries;
  }

  /** A 6-hour snapshot taken by a backup run is still there when the sweep
      runs eight days later: the sweep ends with `BACKUP_CLEANUP_ERROR`
      instead of `OLD_BACKUP_DELETED`. */
  lemma SweepKeepsExpiredSnapshot(backupDir: Path, isoTime: string, t0: int)
    ensures var s := BackupStep(BackupState([], []), backupDir, SixHours, isoTime, t0, true, true, true).state;
      var r := CleanupStep(s, backupDir, t0 + 8 * DAY_MS, true, |s.entries|);
      && |s.entries| == 1 && Expired(s.entries[0], t0 + 8 * DAY_MS)
      && r.entries == s.entries
      && r.log == s.log + [Entry(BackupCleanupError, NoDetails)]
  {
    var s := BackupStep(BackupState([], []), backupDir, SixHours, isoTime, t0, true, true, true).state;
    assert s.entries == [BackupEntry(SnapshotName(SixHours, isoTime), t0, true)];
    assert Expired(s.entries[0], t0 + 8 * DAY_MS);
    SweepNeverRemovesSnapshots(s, backupDir, t0 + 8 * DAY_MS, |s.entries|);
  }

  /** Where no expired entry is a directory, the sweep as written is the
      intended one. */
  lemma SweepAsWrittenOnPlainFiles(s: BackupState, backupDir: Path, now: int, listOk: bool, failAt: nat)
    requires forall k :: 0 <= k < |s.entries| ==> !(Expired(s.entries[k], now) && s.entries[k].isDir)
    ensures CleanupStep(s, backupDir, now, listOk, failAt) == IntendedCleanupStep(s, backupDir, now, listOk, failAt)
  {
    FirstHaltSpec(s.entries, now, failAt, 0);
  }

  /** An entry survives the first `n` steps exactly when it is one of the
      first `n` entries and has not expired. */
  lemma {:induction false} SurvivorsSpec(files: seq<BackupEntry>, now: int, n: nat, e: BackupEntry)
    requires n <= |files|
    ensures e in Survivors(files, now, n) <==> (exists k :: 0 <= k < n && files[k] == e) && !Expired(e, now)
  {
    if n > 0 {
      SurvivorsSpec(files, now, n - 1, e);
      if files[n - 1] == e && !Expired(e, now) {
        assert e in Survivors(files, now, n);
      }
    }
  }

  /** Each of the first `n` entries is either kept or gets one deletion
      row, and the rows are nothing but deletion rows. */
  lemma {:induction false} SweepLogCount(log: seq<Entry>, backupDir: Path, files: seq<BackupEntry>, now: int, n: nat, e: Event)
    requires n <= |files|
    ensures CountOf(SweepLog(log, backupDir, files, now, n), e)
            == CountOf(log, e) + if e == OldBackupDeleted then n - |Survivors(files, now, n)| else 0
  {
    if n > 0 {
      var before := SweepLog(log, backupDir, files, now, n - 1);
      var row := DeletedRow(backupDir, files[n - 1], now);
      SweepLogCount(log, backupDir, files, now, n - 1, e);
      CountOfConcat(before, row, e);
      DeletedRowCount(backupDir, files[n - 1], now, e);
      SurvivorsStep(files, now, n);
    }
  }

  /** The entry handled in step `n` is kept exactly when it has not
      expired. */
  lemma SurvivorsStep(files: seq<BackupEntry>, now: int, n: nat)
    requires 0 < n <= |files|
    ensures |Survivors(files, now, n)| == |Survivors(files, now, n - 1)| + (if Expired(files[n - 1], now) then 0 else 1)
  {
  }

  /** One entry's row is a deletion row exactly when the entry expired. */
  lemma DeletedRowCount(backupDir: Path, x: BackupEntry, now: int, e: Event)
    ensures CountOf(DeletedRow(backupDir, x, now), e) == if e == OldBackupDeleted && Expired(x, now) then 1 else 0
  {
  }

  /** A walk that reaches an entry at which it throws ends there. */
  lemma SweepThrowsAt(s: BackupState, backupDir: Path, now: int, failAt: nat, i: nat)
    requires i < |s.entries| && i <= FirstHalt(s.entries, now, failAt, 0) && Halts(s.entries, now, failAt, i)
    ensures CleanupStep(s, backupDir, now, true, failAt)
            == Swept(s, backupDir, now, i).(log := Swept(s, backupDir, now, i).log + [Entry(BackupCleanupError, NoDetails)])
  {
    FirstHaltSpec(s.entries, now, failAt, 0);
  }

  /** A walk that reaches an entry at which it does not throw goes on past
      it. */
  lemma SweepPasses(s: BackupState, now: int, failAt: nat, i: nat)
    requires i < |s.entries| && i <= FirstHalt(s.entries, now, failAt, 0) && !Halts(s.entries, now, failAt, i)
    ensures i + 1 <= FirstHalt(s.entries, now, failAt, 0)
  {
    FirstHaltSpec(s.entries, now, failAt, 0);
  }

  /** A walk that throws nowhere removes every expired entry. */
  lemma SweepReachesEnd(s: BackupState, backupDir: Path, now: int, failAt: nat)
    requires FirstHalt(s.entries, now, failAt, 0) == |s.entries|
    ensures CleanupStep(s, backupDir, now, true, failAt) == Swept(s, backupDir, now, |s.entries|)
  {
  }

  /** CORRECTED: the intended sweep, when nothing fails, deletes exactly
      the expired entries, snapshot directories included, and keeps every
      other entry. */
  lemma SweepDeletesExactlyExpired(s: BackupState, backupDir: Path, now: int, failAt: nat, e: BackupEntry)
    requires failAt >= |s.entries|
    ensures e in IntendedCleanupStep(s, backupDir, now, true, failAt).entries <==> e in s.entries && !Expired(e, now)
  {
    SurvivorsSpec(s.entries, now, |s.entries|, e);
    assert s.entries[|s.entries|..] == [];
    var r := IntendedCleanupStep(s, backupDir, now, true, failAt);
    assert r.entries == Survivors(s.entries, now, |s.entries|);
    if e in s.entries && !Expired(e, now) {
      var k :| 0 <= k < |s.entries| && s.entries[k] == e;
    }
  }

  /** A walk stopped after `m` entries writes one `OLD_BACKUP_DELETED` row
      per entry it removed, and one `BACKUP_CLEANUP_ERROR` row exactly when
      it stopped early. */
  lemma SweepUntilRows(s: BackupState, backupDir: Path, now: int, m: nat)
    requires m <= |s.entries|
    ensures var r := SweepUntil(s, backupDir, now, m);
      && |r.entries| <= |s.entries|
      && CountOf(r.log, OldBackupDeleted) == CountOf(s.log, OldBackupDeleted) + (|s.entries| - |r.entries|)
      && CountOf(r.log, BackupCleanupError) == CountOf(s.log, BackupCleanupError) + (if m < |s.entries| then 1 else 0)
  {
    var tail := [Entry(BackupCleanupError, NoDetails)];
    var rows := SweepLog(s.log, backupDir, s.entries, now, m);
    SweepLogCount(s.log, backupDir, s.entries, now, m, OldBackupDeleted);
    SweepLogCount(s.log, backupDir, s.entries, now, m, BackupCleanupError);
    if m < |s.entries| {
      CountOfConcat(rows, tail, OldBackupDeleted);
      CountOfConcat(rows, tail, BackupCleanupError);
    }
  }

  /** The sweep, as written and as intended, writes one
      `OLD_BACKUP_DELETED` row per entry it removes, and one
      `BACKUP_CLEANUP_ERROR` row exactly when it throws: as written at the
      first failing or expired-directory entry, as intended only where the
      filesystem fails. */
  lemma SweepRowsPerDeletion(s: BackupState, backupDir: Path, now: int, listOk: bool, failAt: nat)
    ensures var r := CleanupStep(s, backupDir, now, listOk, failAt);
      && |r.entries| <= |s.entries|
      && CountOf(r.log, OldBackupDeleted) == CountOf(s.log, OldBackupDeleted) + (|s.entries| - |r.entries|)
      && CountOf(r.log, BackupCleanupError)
         == CountOf(s.log, BackupCleanupError) + (if !listOk || FirstHalt(s.entries, now, failAt, 0) < |s.entries| then 1 else 0)
    ensures var r := IntendedCleanupStep(s, backupDir, now, listOk, failAt);
      && |r.entries| <= |s.entries|
      && CountOf(r.log, OldBackupDeleted) == CountOf(s.log, OldBackupDeleted) + (|s.entries| - |r.entries|)
      && CountOf(r.log, BackupCleanupError)
         == CountOf(s.log, BackupCleanupError) + (if !listOk || failAt < |s.entries| then 1 else 0)
  {
    if listOk {
      SweepUntilRows(s, backupDir, now, FirstHalt(s.entries, now, failAt, 0));
      SweepUntilRows(s, backupDir, now, if failAt < |s.entries| then failAt else |s.entries|);
    } else {
      var tail := [Entry(BackupCleanupError, NoDetails)];
      CountOfConcat(s.log, tail, OldBackupDeleted);
      CountOfConcat(s.log, tail, BackupCleanupError);
    }
  }

  /** A sweep that throws at entry `m` (the first failing entry or expired
      directory) ends with the `BACKUP_CLEANUP_ERROR` row and leaves that
      entry and every later one untouched, in place at the end of the
      listing. */
  lemma SweepFailureLeavesRest(s: BackupState, backupDir: Path, now: int, failAt: nat)
    requires FirstHalt(s.entries, now, failAt, 0) < |s.entries|
    ensures var m := FirstHalt(s.entries, now, failAt, 0);
      var r := CleanupStep(s, backupDir, now, true, failAt);
      && |r.entries| >= |s.entries| - m
      && r.entries[|r.entries| - (|s.entries| - m)..] == s.entries[m..]
      && r.log[|r.log| - 1] == Entry(BackupCleanupError, NoDetails)
  {
  }

  /** `fs.unlink(path.join(BACKUP_DIR, name))`: the entries of that name
      leave the directory. */
  function RemoveName(entries: seq<BackupEntry>, name: string): seq<BackupEntry>
  {
    if entries == [] then []
    else
      RemoveName(entries[..|entries| - 1], name)
      + (if entries[|entries| - 1].name == name then [] else [entries[|entries| - 1]])
  }

  lemma {:induction false} RemoveNameConcat(a: seq<BackupEntry>, b: seq<BackupEntry>, name: string)
    ensures RemoveName(a + b, name) == RemoveName(a, name) + RemoveName(b, name)
    decreases |b|
  {
    if b == [] {
      assert a + b == a;
    } else {
      var init := b[..|b| - 1];
      assert (a + b)[..|a + b| - 1] == a + init;
      RemoveNameConcat(a, init, name);
    }
  }

  lemma {:induction false} RemoveNameAbsent(a: seq<BackupEntry>, name: string)
    requires forall i :: 0 <= i < |a| ==> a[i].name != name
    ensures RemoveName(a, name) == a
  {
    if a != [] {
      RemoveNameAbsent(a[..|a| - 1], name);
    }
  }

  /** No entry kept from the first `i` shares the `i`-th entry's name. */
  lemma SurvivorsPrecede(files: seq<BackupEntry>, now: int, i: nat)
    requires DistinctNames(files) && i < |files|
    ensures forall k :: 0 <= k < |Survivors(files, now, i)| ==> Survivors(files, now, i)[k].name != files[i].name
  {
    var kept := Survivors(files, now, i);
    forall k | 0 <= k < |kept|
      ensures kept[k].name != files[i].name
    {
      assert kept[k] in kept;
      SurvivorsSpec(files, now, i, kept[k]);
    }
  }

  /** Removing a name held by one entry alone removes just that entry. */
  lemma RemoveOne(before: seq<BackupEntry>, x: BackupEntry, after: seq<BackupEntry>)
    requires forall k :: 0 <= k < |before| ==> before[k].name != x.name
    requires forall k :: 0 <= k < |after| ==> after[k].name != x.name
    ensures RemoveName(before + ([x] + after), x.name) == before + after
  {
    var rest := [x] + after;
    RemoveNameConcat([x], after, x.name);
    assert RemoveName([x], x.name) == [];
    RemoveNameAbsent(after, x.name);
    assert RemoveName(rest, x.name) == after;
    RemoveNameConcat(before, rest, x.name);
    RemoveNameAbsent(before, x.name);
  }

  /** Unlinking the `i`-th listed entry in the middle of the sweep removes
      exactly that entry from the directory. */
  lemma UnlinkStep(files: seq<BackupEntry>, now: int, i: nat)
    requires DistinctNames(files) && i < |files|
    ensures RemoveName(Survivors(files, now, i) + files[i..], files[i].name) == Survivors(files, now, i) + files[i + 1..]
  {
    SurvivorsPrecede(files, now, i);
    assert files[i..] == [files[i]] + files[i + 1..];
    RemoveOne(Survivors(files, now, i), files[i], files[i + 1..]);
  }

  /** Removing one entry keeps names distinct. */
  lemma DistinctWithout(xs: seq<BackupEntry>, k: nat)
    requires DistinctNames(xs) && k < |xs|
    ensures DistinctNames(xs[..k] + xs[k + 1..])
  {
    var ys := xs[..k] + xs[k + 1..];
    forall i, j | 0 <= i < j < |ys|
      ensures ys[i].name != ys[j].name
    {
      var i' := if i < k then i else i + 1;
      var j' := if j < k then j else j + 1;
      assert ys[i] == xs[i'] && ys[j] == xs[j'];
    }
  }

  /** The directory during the sweep keeps its names distinct. */
  lemma {:induction false} SweepKeepsNamesDistinct(files: seq<BackupEntry>, now: int, n: nat)
    requires DistinctNames(files) && n <= |files|
    ensures DistinctNames(Survivors(files, now, n) + files[n..])
  {
    if n == 0 {
      assert files[0..] == files;
    } else {
      SweepKeepsNamesDistinct(files, now, n - 1);
      var before := Survivors(files, now, n - 1) + files[n - 1..];
      var k := |Survivors(files, now, n - 1)|;
      if Expired(files[n - 1], now) {
        DistinctWithout(before, k);
        assert before[..k] + before[k + 1..] == Survivors(files, now, n) + files[n..];
      } else {
        assert before == Survivors(files, now, n) + files[n..];
      }
    }
  }

  /** The backup directory of the running server. */
  class BackupStore {
    /** The entries of `BACKUP_DIR`, in listing order. */
    var entries: seq<BackupEntry>
    const log: AuditLog
    const backupDir: Path

    /** A directory lists each name once. */
    predicate Valid()
      reads this
    {
      DistinctNames(entries)
    }

    function State(): BackupState
      reads this, log
    {
      BackupState(entries, log.entries)
    }

    constructor (entries: seq<BackupEntry>, log: AuditLog, backupDir: Path)
      requires DistinctNames(entries)
      ensures Valid()
      ensures this.entries == entries && this.log == log && this.backupDir == backupDir
    {
      this.entries := entries;
      this.log := log;
      this.backupDir := backupDir;
    }

    /** `getLatestBackup(backupDir, interval)`; `listOk` says whether
        `readdir` succeeds. */
    method GetLatestBackup(interval: Interval, listOk: bool) returns (latest: Option<Path>)
      modifies log
      ensures Lookup(latest, log.entries) == LatestStep(entries, old(log.entries), backupDir, interval, listOk)
    {
      if !listOk {
        log.Add(GetLatestBackupError, IntervalDetails(interval.Tag()));
        return None;
      }
      var backups := WithPrefix(Names(entries), TierPrefix(interval));
      if backups == [] {
        return None;
      }
      latest := Some(Join(backupDir, Greatest(backups)));
    }

    /** `incrementalBackup(PUBLIC_HTML_DIR, BACKUP_DIR, interval)` at time
        `isoTime` (`now` in milliseconds); `ensureOk`, `listOk` and
        `rsyncOk` say whether `ensureDir`, `readdir` and `rsync` succeed.
        `linkDest` is the `--link-dest` argument of the `rsync` command. */
    method IncrementalBackup(interval: Interval, isoTime: string, now: int, ensureOk: bool, listOk: bool, rsyncOk: bool)
        returns (linkDest: Option<Path>, r: Outcome<Path>)
      requires Valid()
      modifies this, log
      ensures Valid()
      ensures BackupRun(State(), linkDest, r) == BackupStep(old(State()), backupDir, interval, isoTime, now, ensureOk, listOk, rsyncOk)
    {
      var timestamp := SanitizeTimestamp(isoTime);
      var name := TierPrefix(interval) + timestamp;
      var backupPath := Join(backupDir, name);
      if !ensureOk {
        log.Add(BackupError, IntervalDetails(interval.Tag()));
        return None, Thrown;
      }
      if name !in Names(entries) {
        entries := entries + [BackupEntry(name, now, true)];
      }
      linkDest := GetLatestBackup(interval, listOk);
      if rsyncOk {
        log.Add(BackupComplete, BackupDetails(interval.Tag(), backupPath));
        r := Resolved(backupPath);
      } else {
        log.Add(BackupError, IntervalDetails(interval.Tag()));
        r := Thrown;
      }
    }

    /** `fs.unlink(filePath)` on the `i`-th listed entry, which has expired,
        and its `OLD_BACKUP_DELETED` row. A directory is refused: `ok` is
        false and nothing changes. */
    method Unlink(files: seq<BackupEntry>, now: int, i: nat) returns (ok: bool)
      requires DistinctNames(files) && i < |files| && Expired(files[i], now)
      requires entries == Survivors(files, now, i) + files[i..]
      modifies this, log
      ensures ok <==> !files[i].isDir
      ensures ok ==> entries == Survivors(files, now, i + 1) + files[i + 1..]
      ensures ok ==> log.entries == old(log.entries) + DeletedRow(backupDir, files[i], now)
      ensures !ok ==> entries == old(entries) && log.entries == old(log.entries)
    {
      if files[i].isDir {
        return false;
      }
      UnlinkStep(files, now, i);
      entries := RemoveName(entries, files[i].name);
      log.Add(OldBackupDeleted, FileDetails(Join(backupDir, files[i].name)));
      ok := true;
    }

    /** One pass of the sweep's loop over the listing of `s`: the `i`-th
        listed entry is `stat`ed (which fails at `failAt`) and unlinked when
        it has expired; `ok` is false when the pass throws, and then nothing
        has changed. */
    method SweepEntry(ghost s: BackupState, files: seq<BackupEntry>, now: int, failAt: nat, i: nat) returns (ok: bool)
      requires files == s.entries && DistinctNames(files) && i < |files|
      requires State() == Swept(s, backupDir, now, i)
      modifies this, log
      ensures ok <==> !Halts(files, now, failAt, i)
      ensures State() == if ok then Swept(s, backupDir, now, i + 1) else old(State())
    {
      if i == failAt {
        return false;
      }
      var file := files[i];
      var age := now - file.mtime;
      if StartsWith(file.name, TierPrefix(SixHours)) && age > 7 * DAY_MS {
        ok := Unlink(files, now, i);
      } else if StartsWith(file.name, TierPrefix(Daily)) && age > 30 * DAY_MS {
        ok := Unlink(files, now, i);
      } else {
        assert files[i..] == [file] + files[i + 1..];
        ok := true;
      }
    }

    /** `cleanupOldBackups()` at time `now`; `listOk` says whether `readdir`
        succeeds and `failAt` is the position of the first entry whose
        `stat` or `unlink` fails for a reason other than the entry being a
        directory. */
    method CleanupOldBackups(now: int, listOk: bool, failAt: nat)
      requires Valid()
      modifies this, log
      ensures Valid()
      ensures State() == CleanupStep(old(State()), backupDir, now, listOk, failAt)
    {
      if !listOk {
        log.Add(BackupCleanupError, NoDetails);
        return;
      }
      ghost var start := State();
      var files := entries;
      var i := 0;
      var stopped := false;
      while i < |files|
        invariant i <= |files| && files == start.entries && DistinctNames(files)
        invariant i <= FirstHalt(files, now, failAt, 0)
        invariant State() == Swept(start, backupDir, now, i)
      {
        var ok := SweepEntry(start, files, now, failAt, i);
        if !ok {
          stopped := true;
          break;
        }
        SweepPasses(start, now, failAt, i);
        i := i + 1;
      }
      SweepKeepsNamesDistinct(files, now, i);
      if stopped {
        // The catch around the walk.
        log.Add(BackupCleanupError, NoDetails);
        SweepThrowsAt(start, backupDir, now, failAt, i);
      } else {
        SweepReachesEnd(start, backupDir, now, failAt);
      }
    }
  }
}

=== FILE: blocklist.dfy ===
/** The IP block list: the in-memory `blockedIPs` set that the admission
    middleware consults, the persisted `blocked_ips` table, and the
    `blockIP`, `unblockIP` and start-up loading steps that keep them
    together (app.js:50-60, 89-90, 99-114). */
module BlockListing {
  import opened AuditTrail

  /** What `ipBlockMiddleware` does with a request: answer 403 or pass it
      on to the next handler. */
  datatype Decision = Forbidden | Next

  /** The admission decision for a client address. */
  function Admission(blocked: set<string>, ip: string): Decision
  {
    if ip in blocked then Forbidden else Next
  }

  /** The block list's state as a value: the in-memory set, the persisted
      table and the audit log it writes to. */
  datatype BlockState = BlockState(memory: set<string>, persisted: set<string>, log: seq<Entry>)

  /** Memory and storage agree, as they do at rest once loaded. */
  predicate Synced(s: BlockState)
  {
    s.memory == s.persisted
  }

  /** `blockIP(ip)`: guarded by the in-memory set; when the address is new
      it is added to the set and to the table and one `IP_BLOCKED` row is
      written. */
  function BlockStep(s: BlockState, ip: string): BlockState
  {
    if ip in s.memory then s
    else BlockState(s.memory + {ip}, s.persisted + {ip}, s.log + [Entry(IpBlocked, IpDetails(ip))])
  }

  /** `unblockIP(ip)`: guarded by the in-memory set; when the address is
      blocked it is removed from the set and from the table and one
      `IP_UNBLOCKED` row is written. */
  function UnblockStep(s: BlockState, ip: string): BlockState
  {
    if ip in s.memory then BlockState(s.memory - {ip}, s.persisted - {ip}, s.log + [Entry(IpUnblocked, IpDetails(ip))])
    else s
  }

  /** The loading step of `initDatabase`: every persisted address is added
      to the in-memory set. */
  function LoadStep(s: BlockState): BlockState
  {
    s.(memory := s.memory + s.persisted)
  }

  /** After loading, every persisted address is denied; loading into the
      empty set of a fresh process makes memory equal storage. */
  lemma LoadCoversTable(s: BlockState, ip: string)
    ensures s.persisted <= LoadStep(s).memory
    ensures ip in s.persisted ==> Admission(LoadStep(s).memory, ip) == Forbidden
    ensures s.memory == {} ==> Synced(LoadStep(s))
    ensures LoadStep(s).log == s.log
  {
  }

  /** Blocking denies that address, leaves every other address's decision
      as it was, and writes one `IP_BLOCKED` row exactly when the address
      was not already blocked; otherwise nothing changes. */
  lemma BlockDeniesOnlyThatAddress(s: BlockState, ip: string, other: string)
    ensures Admission(BlockStep(s, ip).memory, ip) == Forbidden
    ensures other != ip ==> Admission(BlockStep(s, ip).memory, other) == Admission(s.memory, other)
    ensures ip !in s.memory ==> BlockStep(s, ip).log == s.log + [Entry(IpBlocked, IpDetails(ip))]
    ensures ip !in s.memory ==> BlockStep(s, ip).persisted == s.persisted + {ip}
    ensures ip in s.memory ==> BlockStep(s, ip) == s
  {
  }

  /** Unblocking admits that address again, leaves every other address's
      decision as it was, and writes one `IP_UNBLOCKED` row exactly when the
      address was blocked; otherwise nothing changes. */
  lemma UnblockAdmitsOnlyThatAddress(s: BlockState, ip: string, other: string)
    ensures Admission(UnblockStep(s, ip).memory, ip) == Next
    ensures other != ip ==> Admission(UnblockStep(s, ip).memory, other) == Admission(s.memory, other)
    ensures ip in s.memory ==> UnblockStep(s, ip).log == s.log + [Entry(IpUnblocked, IpDetails(ip))]
    ensures ip in s.memory ==> UnblockStep(s, ip).persisted == s.persisted - {ip}
    ensures ip !in s.memory ==> UnblockStep(s, ip) == s
  {
  }

  /** Blocking twice is blocking once: one row, one record. */
  lemma BlockIdempotent(s: BlockState, ip: string)
    ensures BlockStep(BlockStep(s, ip), ip) == BlockStep(s, ip)
    ensures CountOf(BlockStep(BlockStep(s, ip), ip).log, IpBlocked) <= CountOf(s.log, IpBlocked) + 1
  {
    if ip !in s.memory {
      CountOfConcat(s.log, [Entry(IpBlocked, IpDetails(ip))], IpBlocked);
      assert CountOf([Entry(IpBlocked, IpDetails(ip))], IpBlocked) == 1;
    }
  }

  /** Unblocking twice is unblocking once. */
  lemma UnblockIdempotent(s: BlockState, ip: string)
    ensures UnblockStep(UnblockStep(s, ip), ip) == UnblockStep(s, ip)
  {
  }

  /** Blocking and then unblocking an address that was not blocked gives
      back both sets, with the two rows written in order. */
  lemma BlockThenUnblockRestores(s: BlockState, ip: string)
    requires Synced(s) && ip !in s.memory
    ensures UnblockStep(BlockStep(s, ip), ip).memory == s.memory
    ensures UnblockStep(BlockStep(s, ip), ip).persisted == s.persisted
    ensures UnblockStep(BlockStep(s, ip), ip).log
            == s.log + [Entry(IpBlocked, IpDetails(ip)), Entry(IpUnblocked, IpDetails(ip))]
  {
  }

  /** Both mutations keep memory and storage equal. */
  lemma StepsKeepSynced(s: BlockState, ip: string)
    requires Synced(s)
    ensures Synced(BlockStep(s, ip)) && Synced(UnblockStep(s, ip))
  {
  }

  /** An operator or automatic action on the block list. */
  datatype Action = Block(ip: string) | Unblock(ip: string)

  function Apply(s: BlockState, a: Action): BlockState
  {
    match a
    case Block(ip) => BlockStep(s, ip)
    case Unblock(ip) => UnblockStep(s, ip)
  }

  /** The state after a series of actions, applied in order. */
  function ApplyAll(s: BlockState, actions: seq<Action>): BlockState
    decreases |actions|
  {
    if actions == [] then s else Apply(ApplyAll(s, actions[..|actions| - 1]), actions[|actions| - 1])
  }

  /** One action: memory stays equal to storage, the log grows by at most
      one row, and the set's size moves with the rows written. */
  lemma ApplyAccounts(u: BlockState, a: Action)
    requires Synced(u)
    ensures var t := Apply(u, a);
      && Synced(t)
      && |t.log| >= |u.log| && t.log[..|u.log|] == u.log
      && |t.memory| + CountOf(t.log, IpUnblocked) + CountOf(u.log, IpBlocked)
         == |u.memory| + CountOf(t.log, IpBlocked) + CountOf(u.log, IpUnblocked)
  {
    match a
    case Block(ip) =>
      if ip !in u.memory {
        assert |u.memory + {ip}| == |u.memory| + 1;
        OneMoreRow(u.log, Entry(IpBlocked, IpDetails(ip)));
      }
    case Unblock(ip) =>
      if ip in u.memory {
        assert |u.memory - {ip}| == |u.memory| - 1;
        OneMoreRow(u.log, Entry(IpUnblocked, IpDetails(ip)));
      }
  }

  /** A log extended by one row keeps its prefix and its counts, save the
      row's own event. */
  lemma OneMoreRow(log: seq<Entry>, e: Entry)
    ensures (log + [e])[..|log|] == log
    ensures CountOf(log + [e], IpBlocked) == CountOf(log, IpBlocked) + (if e.event == IpBlocked then 1 else 0)
    ensures CountOf(log + [e], IpUnblocked) == CountOf(log, IpUnblocked) + (if e.event == IpUnblocked then 1 else 0)
  {
    CountOfConcat(log, [e], IpBlocked);
    CountOfConcat(log, [e], IpUnblocked);
  }

  /** Over any series of blocks and unblocks the audit trail accounts for
      the block list: memory stays equal to storage, the log only grows, and
      the set grows by exactly the `IP_BLOCKED` rows written minus the
      `IP_UNBLOCKED` rows written. */
  lemma {:induction false} AuditAccountsForBlockList(s: BlockState, actions: seq<Action>)
    requires Synced(s)
    ensures var t := ApplyAll(s, actions);
      && Synced(t)
      && |t.log| >= |s.log| && t.log[..|s.log|] == s.log
      && |t.memory| + CountOf(t.log, IpUnblocked) + CountOf(s.log, IpBlocked)
         == |s.memory| + CountOf(t.log, IpBlocked) + CountOf(s.log, IpUnblocked)
    decreases |actions|
  {
    if actions != [] {
      var prefix := actions[..|actions| - 1];
      AuditAccountsForBlockList(s, prefix);
      var u := ApplyAll(s, prefix);
      ApplyAccounts(u, actions[|actions| - 1]);
      var t := ApplyAll(s, actions);
      assert t.log[..|s.log|] == t.log[..|u.log|][..|s.log|];
    }
  }

  /** The block list of the running server. */
  class BlockList {
    /** `blockedIPs`, the set the middleware consults. */
    var memory: set<string>
    /** The rows of the `blocked_ips` table. */
    var persisted: set<string>
    const log: AuditLog

    function State(): BlockState
      reads this, log
    {
      BlockState(memory, persisted, log.entries)
    }

    /** A fresh process: an empty set beside the table that survived the
        restart. */
    constructor (table: set<string>, log: AuditLog)
      ensures memory == {} && persisted == table && this.log == log
    {
      memory := {};
      persisted := table;
      this.log := log;
    }

    /** `ipBlockMiddleware`: the decision for a request from `ip`. */
    function Admit(ip: string): (d: Decision)
      reads this
      ensures d == Forbidden <==> ip in memory
    {
      Admission(memory, ip)
    }

    /** The loading step of `initDatabase`: each selected row is added to
        the set, one at a time. */
    method Load()
      modifies this
      ensures State() == LoadStep(old(State()))
    {
      var rows := persisted;
      while rows != {}
        invariant rows <= persisted == old(persisted)
        invariant memory == old(memory) + (persisted - rows)
        decreases rows
      {
        var ip :| ip in rows;
        memory := memory + {ip};
        rows := rows - {ip};
      }
    }

    /** `blockIP(ip)`. */
    method Block(ip: string)
      modifies this, log
      ensures State() == BlockStep(old(State()), ip)
    {
      if ip !in memory {
        memory := memory + {ip};
        persisted := persisted + {ip};
        log.Add(IpBlocked, IpDetails(ip));
      }
    }

    /** `unblockIP(ip)`. */
    method Unblock(ip: string)
      modifies this, log
      ensures State() == UnblockStep(old(State()), ip)
    {
      if ip in memory {
        memory := memory - {ip};
        persisted := persisted - {ip};
        log.Add(IpUnblocked, IpDetails(ip));
      }
    }
  }
}

=== FILE: outcomes.dfy ===
/** Value wrappers for the two ways an asynchronous operation of the
    server ends: a JavaScript value that may be `null`, and a promise that
    either resolves or rejects (an exception rethrown to the caller). */
module Outcomes {

  /** A value that may be absent (`null` in the server). */
  datatype Option<+T> = None | Some(value: T)

  /** The settlement of an operation that rethrows its errors: it either
      resolves with a value or throws to its caller. */
  datatype Outcome<+T> = Resolved(value: T) | Thrown

  /** The answer of an external collaborator (an HTTP service, the
      filesystem): it either replies with a body or fails. */
  datatype Reply<+T> = Failed | Replied(body: T)
}

=== FILE: paths.dfy ===
/** Paths and file names as the server handles them: `path.join`,
    `path.basename`, `String.prototype.startsWith` and the order in which
    `Array.prototype.sort` puts strings. */
module Paths {

  type Path = string

  /** `s.startsWith(prefix)`. */
  predicate StartsWith(s: string, prefix: string)
  {
    |prefix| <= |s| && s[..|prefix|] == prefix
  }

  /** `path.join(dir, name)` for a directory written without a trailing
      slash and a bare file name. */
  function Join(dir: Path, name: string): (p: Path)
    ensures StartsWith(p, dir + "/")
    ensures |p| == |dir| + 1 + |name|
  {
    dir + "/" + name
  }

  /** Two names joined to the same directory give the same path only when
      they are the same name. */
  lemma JoinInjective(dir: Path, a: string, b: string)
    ensures Join(dir, a) == Join(dir, b) <==> a == b
  {
    if Join(dir, a) == Join(dir, b) {
      assert a == Join(dir, a)[|dir| + 1..];
      assert b == Join(dir, b)[|dir| + 1..];
    }
  }

  /** The longest prefix of `p` that does not end in a slash. */
  function StripTrailingSlashes(p: Path): Path
  {
    if p != [] && p[|p| - 1] == '/' then StripTrailingSlashes(p[..|p| - 1]) else p
  }

  lemma {:induction false} StripTrailingSlashesSpec(p: Path)
    ensures var r := StripTrailingSlashes(p);
      && |r| <= |p| && r == p[..|r|]
      && (r == [] || r[|r| - 1] != '/')
      && forall i :: |r| <= i < |p| ==> p[i] == '/'
  {
    if p != [] && p[|p| - 1] == '/' {
      StripTrailingSlashesSpec(p[..|p| - 1]);
    }
  }

  /** The longest suffix of `p` that holds no slash. */
  function LastSegment(p: Path): string
  {
    if p == [] || p[|p| - 1] == '/' then [] else LastSegment(p[..|p| - 1]) + [p[|p| - 1]]
  }

  lemma {:induction false} LastSegmentSpec(p: Path)
    ensures var r := LastSegment(p);
      && |r| <= |p| && r == p[|p| - |r|..]
      && (forall i :: 0 <= i < |r| ==> r[i] != '/')
      && (|r| < |p| ==> p[|p| - |r| - 1] == '/')
  {
    if p != [] && p[|p| - 1] != '/' {
      LastSegmentSpec(p[..|p| - 1]);
    }
  }

  /** POSIX `path.basename(p)`: trailing slashes are ignored and the last
      segment is kept; a path made only of slashes has the empty name. */
  function Basename(p: Path): string
  {
    LastSegment(StripTrailingSlashes(p))
  }

  /** The base name is the last segment of the path once its trailing
      slashes are dropped: `q` is the path without them, and the name is
      the longest slash-free suffix of `q`. It is empty exactly when the
      path holds nothing but slashes. */
  lemma BasenameSpec(p: Path)
    ensures var q := StripTrailingSlashes(p); var r := Basename(p);
      && |q| <= |p| && q == p[..|q|] && (q == [] || q[|q| - 1] != '/')
      && (forall i :: |q| <= i < |p| ==> p[i] == '/')
      && |r| <= |q| && r == q[|q| - |r|..]
      && (forall i :: 0 <= i < |r| ==> r[i] != '/')
      && (|r| < |q| ==> q[|q| - |r| - 1] == '/')
      && (r == [] <==> forall i :: 0 <= i < |p| ==> p[i] == '/')
  {
    StripTrailingSlashesSpec(p);
    LastSegmentSpec(StripTrailingSlashes(p));
    BasenameEmpty(p);
  }

  /** The base name is empty exactly when the path is all slashes. */
  lemma BasenameEmpty(p: Path)
    ensures Basename(p) == [] <==> forall i :: 0 <= i < |p| ==> p[i] == '/'
  {
    var q := StripTrailingSlashes(p);
    StripTrailingSlashesSpec(p);
    if q != [] {
      assert p[|q| - 1] == q[|q| - 1] != '/';
      assert LastSegment(q) == LastSegment(q[..|q| - 1]) + [q[|q| - 1]];
    }
  }

  /** `path.basename(path.join(dir, name)) == name` for a bare, non-empty
      name: the name a file is joined under is the name read back. */
  lemma BasenameOfJoin(dir: Path, name: string)
    requires name != []
    requires forall i :: 0 <= i < |name| ==> name[i] != '/'
    ensures Basename(Join(dir, name)) == name
  {
    var p := Join(dir, name);
    assert p[|p| - 1] == name[|name| - 1];
    assert StripTrailingSlashes(p) == p;
    LastSegmentSpec(p);
    var r := LastSegment(p);
    assert p[|p| - |name| - 1] == '/';
    assert p[|p| - |name|..] == name;
  }

  /** `a` sorts at or before `b` under the default `Array.prototype.sort`
      comparison, which compares strings character by character. */
  predicate LexLe(a: string, b: string)
  {
    a == [] || (b != [] && (a[0] < b[0] || (a[0] == b[0] && LexLe(a[1..], b[1..]))))
  }

  lemma {:induction false} LexLeReflexive(a: string)
    ensures LexLe(a, a)
  {
    if a != [] {
      LexLeReflexive(a[1..]);
    }
  }

  lemma {:induction false} LexLeTotal(a: string, b: string)
    ensures LexLe(a, b) || LexLe(b, a)
  {
    if a != [] && b != [] && a[0] == b[0] {
      LexLeTotal(a[1..], b[1..]);
    }
  }

  lemma {:induction false} LexLeAntisymmetric(a: string, b: string)
    requires LexLe(a, b) && LexLe(b, a)
    ensures a == b
  {
    if a != [] && b != [] {
      LexLeAntisymmetric(a[1..], b[1..]);
      assert a == [a[0]] + a[1..];
      assert b == [b[0]] + b[1..];
    }
  }

  lemma {:induction false} LexLeTransitive(a: string, b: string, c: string)
    requires LexLe(a, b) && LexLe(b, c)
    ensures LexLe(a, c)
  {
    if a != [] && b != [] && c != [] && a[0] == b[0] == c[0] {
      LexLeTransitive(a[1..], b[1..], c[1..]);
    }
  }

  /** Strings sharing a prefix compare as their remainders do. */
  lemma {:induction false} LexLeCommonPrefix(p: string, a: string, b: string)
    ensures LexLe(p + a, p + b) <==> LexLe(a, b)
  {
    if p != [] {
      assert (p + a)[0] == p[0] == (p + b)[0];
      assert (p + a)[1..] == p[1..] + a;
      assert (p + b)[1..] == p[1..] + b;
      LexLeCommonPrefix(p[1..], a, b);
    } else {
      assert p + a == a && p + b == b;
    }
  }
}

=== FILE: quarantine.dfy ===
/** The scan-to-quarantine pipeline (`scanDirectory`, `handleInfectedFile`,
    app.js:193-219) and the quarantine's restore and delete operations
    (app.js:327-349). The served tree and the quarantine directory are maps
    from path (or file name) to content; the scanner and each filesystem
    move or unlink are oracle parameters. */
module Quarantine {
  import opened Outcomes
  import opened Paths
  import opened AuditTrail

  /** A file's content. */
  type Bytes = seq<bv8>

  /** The files the pipeline touches: the served tree's files and its
      directories by full path, the quarantine directory by file name, and
      the audit log. The moves here carry single files, so none of them
      creates or removes a directory. */
  datatype Files = Files(tree: map<Path, Bytes>, dirs: set<Path>, quarantine: map<string, Bytes>, log: seq<Entry>)

  /** The tree's directories account for its files: every prefix of a
      file's path under `root` that ends just before a slash is a
      directory of the tree. */
  predicate DirsCoverFiles(root: Path, st: Files)
  {
    forall p, k :: p in st.tree && StartsWith(p, root + "/") && |root| < k < |p| && p[k] == '/' ==> p[..k] in st.dirs
  }

  /** What `clamscan.scanDir` reports: the infection flag, the infected
      files in order, and the virus found in each. */
  datatype ScanReport = ScanReport(isInfected: bool, files: seq<Path>, viruses: map<Path, string>)

  /** `viruses[infectedFile]`, which is `undefined` for an unlisted file. */
  function VirusOf(viruses: map<Path, string>, file: Path): Option<string>
  {
    if file in viruses then Some(viruses[file]) else None
  }

  /** `path.join(QUARANTINE_DIR, path.basename(filePath))`. */
  function QuarantinePath(quarantineDir: Path, filePath: Path): Path
  {
    Join(quarantineDir, Basename(filePath))
  }

  function QuarantinedRow(quarantineDir: Path, file: Path, viruses: map<Path, string>): Entry
  {
    Entry(FileQuarantined, QuarantineDetails(file, QuarantinePath(quarantineDir, file), VirusOf(viruses, file)))
  }

  /** The `FILE_QUARANTINED` rows written for the first `n` listed files,
      in order. */
  function QuarantinedRows(quarantineDir: Path, files: seq<Path>, viruses: map<Path, string>, n: nat): (rows: seq<Entry>)
    requires n <= |files|
    ensures |rows| == n
  {
    if n == 0 then [] else QuarantinedRows(quarantineDir, files, viruses, n - 1) + [QuarantinedRow(quarantineDir, files[n - 1], viruses)]
  }

  /** The `i`-th row is that of the `i`-th file. */
  lemma {:induction false} QuarantinedRowsAt(quarantineDir: Path, files: seq<Path>, viruses: map<Path, string>, n: nat, i: nat)
    requires i < n <= |files|
    ensures QuarantinedRows(quarantineDir, files, viruses, n)[i] == QuarantinedRow(quarantineDir, files[i], viruses)
  {
    if i < n - 1 {
      QuarantinedRowsAt(quarantineDir, files, viruses, n - 1, i);
    }
  }

  /** Those rows are all `FILE_QUARANTINED` rows, one per file. */
  lemma {:induction false} QuarantinedRowsCount(quarantineDir: Path, files: seq<Path>, viruses: map<Path, string>, n: nat, e: Event)
    requires n <= |files|
    ensures CountOf(QuarantinedRows(quarantineDir, files, viruses, n), e) == if e == FileQuarantined then n else 0
  {
    if n > 0 {
      var rows := QuarantinedRows(quarantineDir, files, viruses, n);
      assert rows[..n - 1] == QuarantinedRows(quarantineDir, files, viruses, n - 1);
      QuarantinedRowsCount(quarantineDir, files, viruses, n - 1, e);
    }
  }

  /** The outcome of one `handleInfectedFile` call. */
  datatype Step = Step(files: Files, ok: bool)

  /** `handleInfectedFile(filePath, virusName)`: the move succeeds when the
      file is in the tree, nothing of its base name is quarantined yet
      (`fsExtra.move` without `overwrite` refuses an existing destination)
      and the filesystem does not fail otherwise (`fault`); the file then
      leaves the tree, its content is stored under its base name in the
      quarantine and one `FILE_QUARANTINED` row is written. Otherwise one
      `FILE_QUARANTINE_ERROR` row is written, nothing moves, and the error
      is rethrown (`ok` is false). */
  function HandleStep(st: Files, quarantineDir: Path, filePath: Path, virusName: Option<string>, fault: bool): Step
  {
    if filePath in st.tree && Basename(filePath) !in st.quarantine && !fault then
      Step(Files(st.tree - {filePath}, st.dirs,
                 st.quarantine[Basename(filePath) := st.tree[filePath]],
                 st.log + [Entry(FileQuarantined, QuarantineDetails(filePath, QuarantinePath(quarantineDir, filePath), virusName))]),
           true)
    else
      Step(st.(log := st.log + [Entry(FileQuarantineError, FileDetails(filePath))]), false)
  }

  /** The tree once the first `n` listed files have left it. */
  function Without(tree: map<Path, Bytes>, files: seq<Path>, n: nat): map<Path, Bytes>
    requires n <= |files|
  {
    if n == 0 then tree else Without(tree, files, n - 1) - {files[n - 1]}
  }

  /** Exactly the first `n` listed files leave the tree; every other file
      keeps its content. */
  lemma {:induction false} WithoutSpec(tree: map<Path, Bytes>, files: seq<Path>, n: nat, f: Path)
    requires n <= |files|
    ensures f in Without(tree, files, n) <==> f in tree && forall j :: 0 <= j < n ==> files[j] != f
    ensures f in Without(tree, files, n) ==> Without(tree, files, n)[f] == tree[f]
  {
    if n > 0 {
      WithoutSpec(tree, files, n - 1, f);
    }
  }

  /** The quarantine directory once the first `n` listed files have been
      moved from `tree`: each file's content lands under its base name. (The
      loop only moves a file whose base name is still free, so no entry is
      ever replaced.) */
  function Fill(quarantine: map<string, Bytes>, tree: map<Path, Bytes>, files: seq<Path>, n: nat): map<string, Bytes>
    requires n <= |files|
  {
    if n == 0 then quarantine
    else
      var f := files[n - 1];
      var q := Fill(quarantine, tree, files, n - 1);
      if f in tree then q[Basename(f) := tree[f]] else q
  }

  /** The quarantine gains the base names of the moved files and no other
      name. */
  lemma {:induction false} FillKeys(quarantine: map<string, Bytes>, tree: map<Path, Bytes>, files: seq<Path>, n: nat, name: string)
    requires n <= |files|
    requires forall i :: 0 <= i < n ==> files[i] in tree
    ensures name in Fill(quarantine, tree, files, n) <==>
            name in quarantine || exists i :: 0 <= i < n && Basename(files[i]) == name
  {
    if n > 0 {
      FillKeys(quarantine, tree, files, n - 1, name);
    }
  }

  /** A name no moved file has keeps its content. */
  lemma {:induction false} FillKeepsOtherNames(quarantine: map<string, Bytes>, tree: map<Path, Bytes>, files: seq<Path>, n: nat, name: string)
    requires n <= |files|
    requires name in quarantine
    requires forall i :: 0 <= i < n ==> Basename(files[i]) != name
    ensures name in Fill(quarantine, tree, files, n) && Fill(quarantine, tree, files, n)[name] == quarantine[name]
  {
    if n > 0 {
      FillKeepsOtherNames(quarantine, tree, files, n - 1, name);
    }
  }

  /** Under the base name of a moved file lies its content when no later
      moved file has the same name. */
  lemma {:induction false} FillLastWriterWins(quarantine: map<string, Bytes>, tree: map<Path, Bytes>, files: seq<Path>, n: nat, i: nat)
    requires i < n <= |files| && files[i] in tree
    requires forall j :: i < j < n ==> Basename(files[j]) != Basename(files[i])
    ensures Basename(files[i]) in Fill(quarantine, tree, files, n)
    ensures Fill(quarantine, tree, files, n)[Basename(files[i])] == tree[files[i]]
  {
    if i < n - 1 {
      FillLastWriterWins(quarantine, tree, files, n - 1, i);
    }
  }

  /** How far the quarantine loop got: the state and how many files it moved. */
  datatype Run = Run(files: Files, moved: nat)

  /** Whether the move of the `k`-th listed file can succeed once the files
      before it have been moved: the filesystem does not fail it, the file
      is still in the tree and its base name is still free in the
      quarantine. */
  predicate Movable(tree: map<Path, Bytes>, quarantine: map<string, Bytes>, files: seq<Path>, failAt: nat, k: nat)
    requires k < |files|
  {
    k != failAt && files[k] in Without(tree, files, k) && Basename(files[k]) !in Fill(quarantine, tree, files, k)
  }

  /** Where the loop over the first `n` infected files stops: the number of
      files moved before the first move that throws. */
  function StopAt(tree: map<Path, Bytes>, quarantine: map<string, Bytes>, files: seq<Path>, failAt: nat, n: nat): (m: nat)
    requires n <= |files|
    ensures m <= n
  {
    if n == 0 then 0
    else
      var before := StopAt(tree, quarantine, files, failAt, n - 1);
      if before == n - 1 && Movable(tree, quarantine, files, failAt, n - 1) then n else before
  }

  /** The loop of `scanDirectory` over the first `n` infected files, in
      list order, stopping at the first move that throws: the moved files
      have left the tree and sit in the quarantine, one `FILE_QUARANTINED`
      row each, and the file that stopped the loop has its
      `FILE_QUARANTINE_ERROR` row. `failAt` is the position of the first
      move the filesystem fails (none if past the end). */
  function QuarantineAll(st: Files, quarantineDir: Path, files: seq<Path>, viruses: map<Path, string>, failAt: nat, n: nat): (r: Run)
    requires n <= |files|
    ensures r.moved <= n
  {
    var m := StopAt(st.tree, st.quarantine, files, failAt, n);
    Run(Files(Without(st.tree, files, m), st.dirs,
              Fill(st.quarantine, st.tree, files, m),
              st.log + QuarantinedRows(quarantineDir, files, viruses, m)
                + (if m < n then [Entry(FileQuarantineError, FileDetails(files[m]))] else [])),
        m)
  }

  /** Every file before the stop point was present, its base name was free
      in the quarantine, and no earlier file had the same base name. */
  lemma {:induction false} StopAtMovedBefore(tree: map<Path, Bytes>, quarantine: map<string, Bytes>, files: seq<Path>, failAt: nat, n: nat, i: nat)
    requires n <= |files| && i < StopAt(tree, quarantine, files, failAt, n)
    ensures i != failAt && files[i] in tree && Basename(files[i]) !in quarantine
    ensures forall j :: 0 <= j < i ==> Basename(files[j]) != Basename(files[i])
  {
    var before := StopAt(tree, quarantine, files, failAt, n - 1);
    if i < before {
      StopAtMovedBefore(tree, quarantine, files, failAt, n - 1, i);
    } else {
      assert i == n - 1 && before == i && Movable(tree, quarantine, files, failAt, i);
      WithoutSpec(tree, files, i, files[i]);
      forall k | 0 <= k < i
        ensures files[k] in tree
      {
        StopAtMovedBefore(tree, quarantine, files, failAt, i, k);
      }
      FillKeys(quarantine, tree, files, i, Basename(files[i]));
    }
  }

  /** The file at the stop point, if the loop stopped early, is one whose
      move throws. */
  lemma {:induction false} StopAtUnmovable(tree: map<Path, Bytes>, quarantine: map<string, Bytes>, files: seq<Path>, failAt: nat, n: nat)
    requires n <= |files| && StopAt(tree, quarantine, files, failAt, n) < n
    ensures !Movable(tree, quarantine, files, failAt, StopAt(tree, quarantine, files, failAt, n))
  {
    var before := StopAt(tree, quarantine, files, failAt, n - 1);
    if before < n - 1 {
      StopAtUnmovable(tree, quarantine, files, failAt, n - 1);
    }
  }

  /** Why a file's move throws once the files before it have been moved:
      the filesystem fails it, the file is gone, or its base name is taken,
      by a file quarantined earlier or by one moved in this loop. */
  lemma UnmovableReason(tree: map<Path, Bytes>, quarantine: map<string, Bytes>, files: seq<Path>, failAt: nat, m: nat)
    requires m < |files| && !Movable(tree, quarantine, files, failAt, m)
    requires forall i :: 0 <= i < m ==> files[i] in tree
    ensures m == failAt || files[m] !in tree || Basename(files[m]) in quarantine
            || exists j :: 0 <= j < m && Basename(files[j]) == Basename(files[m])
  {
    WithoutSpec(tree, files, m, files[m]);
    FillKeys(quarantine, tree, files, m, Basename(files[m]));
  }

  /** The loop stops at the first file that cannot be moved: every file
      before it was in the tree, not failed by the filesystem, and had a
      base name that was free, in the quarantine and among the earlier
      files; the file it stops at is failed, missing, or has a base name
      that is taken. */
  lemma StopAtFirstUnmovable(tree: map<Path, Bytes>, quarantine: map<string, Bytes>, files: seq<Path>, failAt: nat, n: nat)
    requires n <= |files|
    ensures var m := StopAt(tree, quarantine, files, failAt, n);
      && (forall i :: 0 <= i < m ==> i != failAt && files[i] in tree && Basename(files[i]) !in quarantine)
      && (forall i, j :: 0 <= j < i < m ==> Basename(files[j]) != Basename(files[i]))
      && (m < n ==> m == failAt || files[m] !in tree || Basename(files[m]) in quarantine
                    || exists j :: 0 <= j < m && Basename(files[j]) == Basename(files[m]))
  {
    var m := StopAt(tree, quarantine, files, failAt, n);
    forall i | 0 <= i < m
      ensures i != failAt && files[i] in tree && Basename(files[i]) !in quarantine
    {
      StopAtMovedBefore(tree, quarantine, files, failAt, n, i);
    }
    forall i, j | 0 <= j < i < m
      ensures Basename(files[j]) != Basename(files[i])
    {
      StopAtMovedBefore(tree, quarantine, files, failAt, n, i);
    }
    if m < n {
      StopAtUnmovable(tree, quarantine, files, failAt, n);
      UnmovableReason(tree, quarantine, files, failAt, m);
    }
  }

  /** What the loop leaves: every moved file has left the tree and lies in
      the quarantine under its base name with its own content; every file
      quarantined before keeps its content, since a move never replaces an
      existing file; and the quarantine holds no other name. */
  lemma QuarantineAllPlacesFiles(st: Files, quarantineDir: Path, files: seq<Path>, viruses: map<Path, string>, failAt: nat, n: nat)
    requires n <= |files|
    ensures var r := QuarantineAll(st, quarantineDir, files, viruses, failAt, n);
      && (forall i :: 0 <= i < r.moved ==>
            files[i] in st.tree && files[i] !in r.files.tree && Basename(files[i]) in r.files.quarantine
            && r.files.quarantine[Basename(files[i])] == st.tree[files[i]])
      && (forall name :: name in st.quarantine ==>
            name in r.files.quarantine && r.files.quarantine[name] == st.quarantine[name])
      && (forall name :: name in r.files.quarantine <==>
            name in st.quarantine || exists i :: 0 <= i < r.moved && Basename(files[i]) == name)
  {
    var m := StopAt(st.tree, st.quarantine, files, failAt, n);
    StopAtFirstUnmovable(st.tree, st.quarantine, files, failAt, n);
    forall i | 0 <= i < m
      ensures files[i] !in Without(st.tree, files, m)
      ensures Basename(files[i]) in Fill(st.quarantine, st.tree, files, m)
      ensures Fill(st.quarantine, st.tree, files, m)[Basename(files[i])] == st.tree[files[i]]
    {
      WithoutSpec(st.tree, files, m, files[i]);
      FillLastWriterWins(st.quarantine, st.tree, files, m, i);
    }
    forall name | name in st.quarantine
      ensures name in Fill(st.quarantine, st.tree, files, m)
      ensures Fill(st.quarantine, st.tree, files, m)[name] == st.quarantine[name]
    {
      FillKeepsOtherNames(st.quarantine, st.tree, files, m, name);
    }
    forall name
      ensures name in Fill(st.quarantine, st.tree, files, m) <==>
              name in st.quarantine || exists i :: 0 <= i < m && Basename(files[i]) == name
    {
      FillKeys(st.quarantine, st.tree, files, m, name);
    }
  }

  /** With no filesystem failure, and listed files all present with base
      names that are distinct and not yet quarantined, every listed file is
      moved and lies in the quarantine under its base name. */
  lemma QuarantineAllMovesEverything(st: Files, quarantineDir: Path, files: seq<Path>, viruses: map<Path, string>, failAt: nat)
    requires failAt >= |files|
    requires forall i :: 0 <= i < |files| ==> files[i] in st.tree && Basename(files[i]) !in st.quarantine
    requires forall i, j :: 0 <= i < j < |files| ==> Basename(files[i]) != Basename(files[j])
    ensures var r := QuarantineAll(st, quarantineDir, files, viruses, failAt, |files|);
      && r.moved == |files|
      && forall i :: 0 <= i < |files| ==>
           files[i] !in r.files.tree && Basename(files[i]) in r.files.quarantine
           && r.files.quarantine[Basename(files[i])] == st.tree[files[i]]
  {
    StopAtFirstUnmovable(st.tree, st.quarantine, files, failAt, |files|);
    QuarantineAllPlacesFiles(st, quarantineDir, files, viruses, failAt, |files|);
  }

  /** One more file: if the loop moved the first `i` files, the move of the
      next one (as `handleInfectedFile` performs it) takes the state of the
      loop over `i` files to the state of the loop over `i + 1`, and
      succeeds exactly when that loop moves it. */
  lemma QuarantineAllNext(st: Files, quarantineDir: Path, files: seq<Path>, viruses: map<Path, string>, failAt: nat, i: nat)
    requires i < |files|
    requires QuarantineAll(st, quarantineDir, files, viruses, failAt, i).moved == i
    ensures var step := HandleStep(QuarantineAll(st, quarantineDir, files, viruses, failAt, i).files,
                                   quarantineDir, files[i], VirusOf(viruses, files[i]), i == failAt);
      Run(step.files, if step.ok then i + 1 else i) == QuarantineAll(st, quarantineDir, files, viruses, failAt, i + 1)
  {
    WithoutSpec(st.tree, files, i, files[i]);
  }

  /** Once the loop has stopped, later files make no difference. */
  lemma {:induction false} QuarantineAllStops(st: Files, quarantineDir: Path, files: seq<Path>, viruses: map<Path, string>, failAt: nat, k: nat, n: nat)
    requires k <= n <= |files|
    requires QuarantineAll(st, quarantineDir, files, viruses, failAt, k).moved < k
    ensures QuarantineAll(st, quarantineDir, files, viruses, failAt, n) == QuarantineAll(st, quarantineDir, files, viruses, failAt, k)
  {
    if k < n {
      QuarantineAllStops(st, quarantineDir, files, viruses, failAt, k, n - 1);
    }
  }

  /** Two infected files with the same base name: the first is moved, the
      second move throws because its destination exists, so the scan
      aborts and the second file stays served with its content. */
  lemma SameBasenameAborts(st: Files, quarantineDir: Path, directory: Path, a: Path, b: Path, viruses: map<Path, string>)
    requires a != b && Basename(a) == Basename(b)
    requires a in st.tree && b in st.tree && Basename(a) !in st.quarantine
    ensures var run := QuarantineAll(st, quarantineDir, [a, b], viruses, 2, 2);
      && run.moved == 1
      && a !in run.files.tree && run.files.quarantine[Basename(a)] == st.tree[a]
      && b in run.files.tree && run.files.tree[b] == st.tree[b]
    ensures var o := ScanStep(st, quarantineDir, directory, Replied(ScanReport(true, [a, b], viruses)), 2);
      && o.result == Thrown
      && o.files.log[|o.files.log| - 2..]
         == [Entry(FileQuarantineError, FileDetails(b)), Entry(DirectoryScanError, DirectoryDetails(directory))]
  {
    var files := [a, b];
    assert Movable(st.tree, st.quarantine, files, 2, 0);
    assert StopAt(st.tree, st.quarantine, files, 2, 1) == 1;
    assert Basename(files[1]) in Fill(st.quarantine, st.tree, files, 1);
    assert StopAt(st.tree, st.quarantine, files, 2, 2) == 1;
    WithoutSpec(st.tree, files, 1, a);
    WithoutSpec(st.tree, files, 1, b);
  }

  /** The settlement of one scan run and the state it leaves. */
  datatype ScanRun = ScanRun(files: Files, result: Outcome<ScanReport>)

  /** `scanDirectory(directory)` given the scanner's reply and the first
      failing move. A failed scan writes `DIRECTORY_SCAN_ERROR` and throws;
      a clean scan writes `DIRECTORY_SCAN_COMPLETE`; an infected scan
      quarantines the listed files and writes `DIRECTORY_SCAN_COMPLETE`,
      unless a move throws, which ends the run with
      `DIRECTORY_SCAN_ERROR` and rethrows. */
  function ScanStep(st: Files, quarantineDir: Path, directory: Path, reply: Reply<ScanReport>, failAt: nat): ScanRun
  {
    match reply
    case Failed =>
      ScanRun(st.(log := st.log + [Entry(DirectoryScanError, DirectoryDetails(directory))]), Thrown)
    case Replied(report) =>
      if !report.isInfected then
        ScanRun(st.(log := st.log + [Entry(DirectoryScanComplete, ScanDetails(directory, false))]), Resolved(report))
      else
        var run := QuarantineAll(st, quarantineDir, report.files, report.viruses, failAt, |report.files|);
        if run.moved < |report.files| then
          ScanRun(run.files.(log := run.files.log + [Entry(DirectoryScanError, DirectoryDetails(directory))]), Thrown)
        else
          ScanRun(run.files.(log := run.files.log + [Entry(DirectoryScanComplete, ScanDetails(directory, true))]), Resolved(report))
  }

  /** A scan run settles exactly when the scanner answered and, for an
      infected directory, every listed file was moved. */
  lemma ScanSettlesIffAllMoved(st: Files, quarantineDir: Path, directory: Path, reply: Reply<ScanReport>, failAt: nat)
    ensures ScanStep(st, quarantineDir, directory, reply, failAt).result.Resolved?
            <==> reply.Replied? && (reply.body.isInfected ==>
                   QuarantineAll(st, quarantineDir, reply.body.files, reply.body.viruses, failAt, |reply.body.files|).moved
                   == |reply.body.files|)
    ensures ScanStep(st, quarantineDir, directory, reply, failAt).result.Resolved? ==>
            ScanStep(st, quarantineDir, directory, reply, failAt).result.value == reply.body
  {
  }

  /** A scan run that settles writes exactly one `DIRECTORY_SCAN_COMPLETE`
      row, infected or clean, and one `FILE_QUARANTINED` row per listed file
      when infected; a run that throws writes one `DIRECTORY_SCAN_ERROR` row
      and no completion row. */
  lemma ScanRowsAccount(st: Files, quarantineDir: Path, directory: Path, reply: Reply<ScanReport>, failAt: nat)
    ensures var o := ScanStep(st, quarantineDir, directory, reply, failAt);
      && CountOf(o.files.log, DirectoryScanComplete)
         == CountOf(st.log, DirectoryScanComplete) + (if o.result.Resolved? then 1 else 0)
      && CountOf(o.files.log, DirectoryScanError)
         == CountOf(st.log, DirectoryScanError) + (if o.result.Thrown? then 1 else 0)
      && (o.result.Resolved? && o.result.value.isInfected ==>
            CountOf(o.files.log, FileQuarantined) == CountOf(st.log, FileQuarantined) + |o.result.value.files|)
  {
    var o := ScanStep(st, quarantineDir, directory, reply, failAt);
    var last := o.files.log[|o.files.log| - 1];
    var middle: seq<Entry>;
    if reply.Failed? || !reply.body.isInfected {
      middle := [];
      assert o.files.log == st.log + middle + [last];
    } else {
      var moved, error := InfectedScanRows(st, quarantineDir, directory, reply.body, failAt);
      var rows := QuarantinedRows(quarantineDir, reply.body.files, reply.body.viruses, moved);
      MiddleCounts(rows, error, quarantineDir, reply.body.files, reply.body.viruses, moved);
      middle := rows + error;
    }
    ShapeCounts(o.files.log, st.log, middle, last);
  }

  /** The counts of a log made of a base, rows holding no scan row, and
      one closing row. */
  lemma ShapeCounts(log: seq<Entry>, base: seq<Entry>, middle: seq<Entry>, last: Entry)
    requires log == base + middle + [last]
    requires CountOf(middle, DirectoryScanComplete) == 0 && CountOf(middle, DirectoryScanError) == 0
    ensures CountOf(log, DirectoryScanComplete) == CountOf(base, DirectoryScanComplete) + (if last.event == DirectoryScanComplete then 1 else 0)
    ensures CountOf(log, DirectoryScanError) == CountOf(base, DirectoryScanError) + (if last.event == DirectoryScanError then 1 else 0)
    ensures CountOf(log, FileQuarantined) == CountOf(base, FileQuarantined) + CountOf(middle, FileQuarantined) + (if last.event == FileQuarantined then 1 else 0)
  {
    AppendCounts(base, middle, last, DirectoryScanComplete);
    AppendCounts(base, middle, last, DirectoryScanError);
    AppendCounts(base, middle, last, FileQuarantined);
  }

  /** The log of an infected scan run: the rows of the quarantine loop, then
      the run's own closing row. */
  lemma InfectedScanRows(st: Files, quarantineDir: Path, directory: Path, report: ScanReport, failAt: nat)
      returns (moved: nat, error: seq<Entry>)
    requires report.isInfected
    ensures var o := ScanStep(st, quarantineDir, directory, Replied(report), failAt);
      && moved <= |report.files|
      && |o.files.log| > 0
      && o.files.log == st.log + (QuarantinedRows(quarantineDir, report.files, report.viruses, moved) + error)
                        + [o.files.log[|o.files.log| - 1]]
      && o.files.log[|o.files.log| - 1].event == (if o.result.Resolved? then DirectoryScanComplete else DirectoryScanError)
      && (error == [] || (|error| == 1 && error[0].event == FileQuarantineError))
      && (o.result.Resolved? ==> moved == |report.files|)
  {
    var run := QuarantineAll(st, quarantineDir, report.files, report.viruses, failAt, |report.files|);
    moved := run.moved;
    error := if run.moved < |report.files| then [Entry(FileQuarantineError, FileDetails(report.files[run.moved]))] else [];
  }

  lemma AppendCounts(log: seq<Entry>, middle: seq<Entry>, last: Entry, e: Event)
    ensures CountOf(log + middle + [last], e) == CountOf(log, e) + CountOf(middle, e) + (if last.event == e then 1 else 0)
  {
    CountOfConcat(log, middle, e);
    CountOfConcat(log + middle, [last], e);
  }

  /** The rows of the quarantine loop hold no scan row and one
      `FILE_QUARANTINED` row per moved file. */
  lemma MiddleCounts(rows: seq<Entry>, error: seq<Entry>, quarantineDir: Path, files: seq<Path>, viruses: map<Path, string>, n: nat)
    requires n <= |files| && rows == QuarantinedRows(quarantineDir, files, viruses, n)
    requires error == [] || (|error| == 1 && error[0].event == FileQuarantineError)
    ensures CountOf(rows + error, DirectoryScanComplete) == 0
    ensures CountOf(rows + error, DirectoryScanError) == 0
    ensures CountOf(rows + error, FileQuarantined) == n
  {
    QuarantinedRowsCount(quarantineDir, files, viruses, n, DirectoryScanComplete);
    QuarantinedRowsCount(quarantineDir, files, viruses, n, DirectoryScanError);
    QuarantinedRowsCount(quarantineDir, files, viruses, n, FileQuarantined);
    CountOfConcat(rows, error, DirectoryScanComplete);
    CountOfConcat(rows, error, DirectoryScanError);
    CountOfConcat(rows, error, FileQuarantined);
  }

  /** A run whose move of the `k`-th listed file throws ends with the error
      rows of that file and of the directory, and leaves that file and every
      later one (not listed earlier) where it was, with its content. */
  lemma ScanAbortLeavesLaterFiles(st: Files, quarantineDir: Path, directory: Path, report: ScanReport, failAt: nat, j: nat)
    requires report.isInfected
    requires QuarantineAll(st, quarantineDir, report.files, report.viruses, failAt, |report.files|).moved < |report.files|
    ensures var o := ScanStep(st, quarantineDir, directory, Replied(report), failAt);
      var k := QuarantineAll(st, quarantineDir, report.files, report.viruses, failAt, |report.files|).moved;
      && o.result == Thrown
      && |o.files.log| >= 2
      && o.files.log[|o.files.log| - 2..]
         == [Entry(FileQuarantineError, FileDetails(report.files[k])), Entry(DirectoryScanError, DirectoryDetails(directory))]
      && (k <= j < |report.files| && report.files[j] in st.tree && (forall i :: 0 <= i < k ==> report.files[i] != report.files[j]) ==>
           report.files[j] in o.files.tree && o.files.tree[report.files[j]] == st.tree[report.files[j]])
  {
    var k := QuarantineAll(st, quarantineDir, report.files, report.viruses, failAt, |report.files|).moved;
    if j < |report.files| {
      WithoutSpec(st.tree, report.files, k, report.files[j]);
    }
  }

  /** `/quarantine/:filename/restore`: a move from the quarantine to the
      ROOT of the served tree under the same name. On success one
      `FILE_RESTORED_FROM_QUARANTINE` row is written; on failure (no such
      file, a file or a directory of that name already at the root, which
      `fsExtra.move` without `overwrite` refuses, or the filesystem fails)
      nothing changes. */
  function RestoreStep(st: Files, quarantineDir: Path, publicHtmlDir: Path, name: string, fault: bool): Step
  {
    if name in st.quarantine && Join(publicHtmlDir, name) !in st.tree && Join(publicHtmlDir, name) !in st.dirs && !fault then
      Step(Files(st.tree[Join(publicHtmlDir, name) := st.quarantine[name]], st.dirs,
                 st.quarantine - {name},
                 st.log + [Entry(FileRestoredFromQuarantine, RestoreDetails(Join(quarantineDir, name), Join(publicHtmlDir, name)))]),
           true)
    else
      Step(st, false)
  }

  /** `/quarantine/:filename` (DELETE): an unlink in the quarantine. On
      success one `FILE_DELETED_FROM_QUARANTINE` row is written; on failure
      nothing changes. */
  function DeleteStep(st: Files, quarantineDir: Path, name: string, fault: bool): Step
  {
    if name in st.quarantine && !fault then
      Step(Files(st.tree, st.dirs, st.quarantine - {name},
                 st.log + [Entry(FileDeletedFromQuarantine, FileDetails(Join(quarantineDir, name)))]),
           true)
    else
      Step(st, false)
  }

  /** Restore and delete act on the one name. Restore succeeds exactly when
      the name is quarantined, no file and no directory of that name is at
      the tree's root and the filesystem does not fail; it then moves the content to the
      root, writes its one row, and leaves every other path of the tree and
      every other quarantined name as they were. Delete succeeds exactly
      when the name is quarantined and the filesystem does not fail; it
      then drops the name, writes its one row, and leaves the tree and the
      other names alone. A failed call changes nothing. */
  lemma QuarantineOpsTouchOnlyName(st: Files, quarantineDir: Path, publicHtmlDir: Path, name: string, fault: bool)
    ensures var r := RestoreStep(st, quarantineDir, publicHtmlDir, name, fault);
      var dest := Join(publicHtmlDir, name);
      && (r.ok <==> name in st.quarantine && dest !in st.tree && dest !in st.dirs && !fault)
      && r.files.dirs == st.dirs
      && (r.ok ==> name !in r.files.quarantine
                   && dest in r.files.tree && r.files.tree[dest] == st.quarantine[name]
                   && r.files.log == st.log + [Entry(FileRestoredFromQuarantine, RestoreDetails(Join(quarantineDir, name), dest))])
      && (!r.ok ==> r.files == st)
      && (forall p :: p != dest ==> (p in r.files.tree <==> p in st.tree)
                                    && (p in st.tree ==> r.files.tree[p] == st.tree[p]))
      && (forall n :: n != name ==> (n in r.files.quarantine <==> n in st.quarantine)
                                    && (n in st.quarantine ==> r.files.quarantine[n] == st.quarantine[n]))
    ensures var d := DeleteStep(st, quarantineDir, name, fault);
      && (d.ok <==> name in st.quarantine && !fault)
      && (d.ok ==> name !in d.files.quarantine
                   && d.files.log == st.log + [Entry(FileDeletedFromQuarantine, FileDetails(Join(quarantineDir, name)))])
      && d.files.tree == st.tree && d.files.dirs == st.dirs
      && (!d.ok ==> d.files == st)
      && (forall n :: n != name ==> (n in d.files.quarantine <==> n in st.quarantine)
                                    && (n in st.quarantine ==> d.files.quarantine[n] == st.quarantine[n]))
  {
  }

  /** Quarantining a file from a subdirectory and then restoring it by its
      name puts the content back at the tree's root, not where it came
      from: the original path stays empty and the subdirectory it left
      stays in place. */
  lemma {:induction false} RestoreLandsAtRoot(st: Files, quarantineDir: Path, publicHtmlDir: Path, sub: string, name: string, virus: Option<string>)
    requires DirsCoverFiles(publicHtmlDir, st)
    requires sub != [] && name != []
    requires forall i :: 0 <= i < |name| ==> name[i] != '/'
    requires Join(Join(publicHtmlDir, sub), name) in st.tree
    requires name !in st.quarantine && Join(publicHtmlDir, name) !in st.tree && Join(publicHtmlDir, name) !in st.dirs
    ensures var file := Join(Join(publicHtmlDir, sub), name);
      var q := HandleStep(st, quarantineDir, file, virus, false);
      var r := RestoreStep(q.files, quarantineDir, publicHtmlDir, name, false);
      && q.ok && r.ok
      && r.files.tree[Join(publicHtmlDir, name)] == st.tree[file]
      && file !in r.files.tree
      && Join(publicHtmlDir, sub) in r.files.dirs
  {
    var file := Join(Join(publicHtmlDir, sub), name);
    BasenameOfJoin(Join(publicHtmlDir, sub), name);
    assert |file| > |Join(publicHtmlDir, name)|;
    ParentIsDir(st, publicHtmlDir, sub, name);
  }

  /** The directory of `root/sub/name`, a file of a tree whose directories
      cover its files, is `root/sub`. */
  lemma ParentIsDir(st: Files, root: Path, sub: string, name: string)
    requires DirsCoverFiles(root, st) && sub != []
    requires Join(Join(root, sub), name) in st.tree
    ensures Join(root, sub) in st.dirs
  {
    var file := Join(Join(root, sub), name);
    var k := |Join(root, sub)|;
    assert file[k] == '/' && file[..k] == Join(root, sub);
    assert StartsWith(file, root + "/");
  }

  /** A file quarantined out of a subdirectory that has its own name
      (`root/name/name`) cannot be restored: the directory it left is still
      at the root under that name, so the move throws and no row is
      written. */
  lemma RestoreIntoLeftDirectoryThrows(st: Files, quarantineDir: Path, publicHtmlDir: Path, name: string, virus: Option<string>)
    requires DirsCoverFiles(publicHtmlDir, st)
    requires name != [] && forall i :: 0 <= i < |name| ==> name[i] != '/'
    requires Join(Join(publicHtmlDir, name), name) in st.tree && name !in st.quarantine
    ensures var file := Join(Join(publicHtmlDir, name), name);
      var q := HandleStep(st, quarantineDir, file, virus, false);
      var r := RestoreStep(q.files, quarantineDir, publicHtmlDir, name, false);
      && q.ok && !r.ok
      && r.files == q.files
      && name in r.files.quarantine && file !in r.files.tree
  {
    BasenameOfJoin(Join(publicHtmlDir, name), name);
    ParentIsDir(st, publicHtmlDir, name, name);
  }

  /** A tree with fewer files and the same directories keeps its
      directories covering its files. */
  lemma FewerFilesKeepCover(root: Path, st: Files, t: Files)
    requires DirsCoverFiles(root, st)
    requires t.dirs == st.dirs && t.tree.Keys <= st.tree.Keys
    ensures DirsCoverFiles(root, t)
  {
  }

  /** Every operation here keeps the tree's directories covering its
      files: a scan and a move into the quarantine only take files away,
      delete leaves the tree alone, and restore adds a file directly under
      the root. */
  lemma OpsKeepDirsCover(st: Files, quarantineDir: Path, root: Path, directory: Path, reply: Reply<ScanReport>,
                         failAt: nat, filePath: Path, name: string, virus: Option<string>, fault: bool)
    requires DirsCoverFiles(root, st)
    requires forall i :: 0 <= i < |name| ==> name[i] != '/'
    ensures DirsCoverFiles(root, HandleStep(st, quarantineDir, filePath, virus, fault).files)
    ensures DirsCoverFiles(root, ScanStep(st, quarantineDir, directory, reply, failAt).files)
    ensures DirsCoverFiles(root, RestoreStep(st, quarantineDir, root, name, fault).files)
    ensures DirsCoverFiles(root, DeleteStep(st, quarantineDir, name, fault).files)
  {
    FewerFilesKeepCover(root, st, HandleStep(st, quarantineDir, filePath, virus, fault).files);
    if reply.Replied? && reply.body.isInfected {
      var files := reply.body.files;
      var run := QuarantineAll(st, quarantineDir, files, reply.body.viruses, failAt, |files|);
      forall f | f in run.files.tree
        ensures f in st.tree
      {
        WithoutSpec(st.tree, files, run.moved, f);
      }
    }
    FewerFilesKeepCover(root, st, ScanStep(st, quarantineDir, directory, reply, failAt).files);
  }

  /** The files of the running server. */
  class FileStore {
    /** The files of the served tree, `PUBLIC_HTML_DIR`, by full path. */
    var tree: map<Path, Bytes>
    /** The directories of the served tree; no operation here changes them. */
    const dirs: set<Path>
    /** `QUARANTINE_DIR`, by file name. */
    var quarantine: map<string, Bytes>
    const log: AuditLog
    const publicHtmlDir: Path
    const quarantineDir: Path

    function State(): Files
      reads this, log
    {
      Files(tree, dirs, quarantine, log.entries)
    }

    constructor (tree: map<Path, Bytes>, dirs: set<Path>, quarantine: map<string, Bytes>, log: AuditLog, publicHtmlDir: Path, quarantineDir: Path)
      ensures this.tree == tree && this.dirs == dirs && this.quarantine == quarantine && this.log == log
      ensures this.publicHtmlDir == publicHtmlDir && this.quarantineDir == quarantineDir
    {
      this.tree := tree;
      this.dirs := dirs;
      this.quarantine := quarantine;
      this.log := log;
      this.publicHtmlDir := publicHtmlDir;
      this.quarantineDir := quarantineDir;
    }

    /** `GET /quarantine`: the names in the quarantine directory. */
    function Listing(): set<string>
      reads this
    {
      quarantine.Keys
    }

    /** `handleInfectedFile(filePath, virusName)`; `fault` says whether the
        filesystem fails the move for a reason other than an existing
        destination. `ok` is false when the error is rethrown. */
    method HandleInfectedFile(filePath: Path, virusName: Option<string>, fault: bool) returns (ok: bool)
      modifies this, log
      ensures Step(State(), ok) == HandleStep(old(State()), quarantineDir, filePath, virusName, fault)
    {
      var quarantineFilePath := Join(quarantineDir, Basename(filePath));
      if filePath in tree && Basename(filePath) !in quarantine && !fault {
        var content := tree[filePath];
        tree := tree - {filePath};
        quarantine := quarantine[Basename(filePath) := content];
        log.Add(FileQuarantined, QuarantineDetails(filePath, quarantineFilePath, virusName));
        ok := true;
      } else {
        log.Add(FileQuarantineError, FileDetails(filePath));
        ok := false;
      }
    }

    /** `scanDirectory(directory)`; `reply` is what the scanner reports and
        `failAt` the position of the first move the filesystem fails. */
    method ScanDirectory(directory: Path, reply: Reply<ScanReport>, failAt: nat) returns (r: Outcome<ScanReport>)
      modifies this, log
      ensures ScanRun(State(), r) == ScanStep(old(State()), quarantineDir, directory, reply, failAt)
    {
      match reply
      case Failed =>
        log.Add(DirectoryScanError, DirectoryDetails(directory));
        return Thrown;
      case Replied(report) =>
        if report.isInfected {
          var moved := QuarantineFiles(report.files, report.viruses, failAt);
          if moved < |report.files| {
            log.Add(DirectoryScanError, DirectoryDetails(directory));
            return Thrown;
          }
        }
        log.Add(DirectoryScanComplete, ScanDetails(directory, report.isInfected));
        r := Resolved(report);
    }

    /** The loop of `scanDirectory` over the infected files: one
        `handleInfectedFile` call per file, in order, until one throws;
        `moved` is the number of files moved. */
    method QuarantineFiles(files: seq<Path>, viruses: map<Path, string>, failAt: nat) returns (moved: nat)
      modifies this, log
      ensures Run(State(), moved) == QuarantineAll(old(State()), quarantineDir, files, viruses, failAt, |files|)
    {
      ghost var start := State();
      var i := 0;
      while i < |files|
        invariant 0 <= i <= |files|
        invariant QuarantineAll(start, quarantineDir, files, viruses, failAt, i) == Run(State(), i)
      {
        var file := files[i];
        QuarantineAllNext(start, quarantineDir, files, viruses, failAt, i);
        var ok := HandleInfectedFile(file, VirusOf(viruses, file), i == failAt);
        if !ok {
          QuarantineAllStops(start, quarantineDir, files, viruses, failAt, i + 1, |files|);
          return i;
        }
        i := i + 1;
      }
      return i;
    }

    /** `POST /quarantine/:filename/restore`; `fault` says whether the
        filesystem fails the move. */
    method RestoreFromQuarantine(name: string, fault: bool) returns (ok: bool)
      modifies this, log
      ensures Step(State(), ok) == RestoreStep(old(State()), quarantineDir, publicHtmlDir, name, fault)
    {
      var quarantineFilePath := Join(quarantineDir, name);
      var restoreFilePath := Join(publicHtmlDir, name);
      if name in quarantine && restoreFilePath !in tree && restoreFilePath !in dirs && !fault {
        tree := tree[restoreFilePath := quarantine[name]];
        quarantine := quarantine - {name};
        log.Add(FileRestoredFromQuarantine, RestoreDetails(quarantineFilePath, restoreFilePath));
        ok := true;
      } else {
        ok := false;
      }
    }

    /** `DELETE /quarantine/:filename`; `fault` says whether the filesystem
        fails the unlink. */
    method DeleteFromQuarantine(name: string, fault: bool) returns (ok: bool)
      modifies this, log
      ensures Step(State(), ok) == DeleteStep(old(State()), quarantineDir, name, fault)
    {
      var filePath := Join(quarantineDir, name);
      if name in quarantine && !fault {
        quarantine := quarantine - {name};
        log.Add(FileDeletedFromQuarantine, FileDetails(filePath));
        ok := true;
      } else {
        ok := false;
      }
    }
  }
}

=== FILE: ratelimits.dfy ===
/** The external-service quota governor (`API_LIMITS` and its daily reset,
    app.js:42-47, 496-499) and the two governed checks it gates:
    `checkFileWithVirusTotal` (app.js:117-137) and `checkIPWithAbuseIPDB`
    with its auto-block policy (app.js:140-163). The HTTP calls are oracle
    parameters: the answer the service would give if it were asked. */
module RateLimits {
  import opened Outcomes
  import opened AuditTrail
  import opened BlockListing

  /** `perDay` of both services. */
  const PER_DAY: nat := 100
  /** `daily` of both services, which no code consults. */
  const DAILY: nat := 500
  /** An AbuseIPDB score strictly above this blocks the address. */
  const AUTO_BLOCK_THRESHOLD: int := 80

  /** `response.data.data` of an AbuseIPDB answer; its
      `abuseConfidenceScore` may be missing. */
  datatype AbuseData = AbuseData(abuseConfidenceScore: Option<int>)

  /** `response.data` of an AbuseIPDB answer: the object returned to the
      caller. Its `data` member may be missing. */
  datatype AbuseBody = AbuseBody(data: Option<AbuseData>)

  /** Whether a body read by the policy calls for a block. A missing score
      compares as `undefined > 80`, which is false. */
  predicate CallsForBlock(body: AbuseBody)
    requires body.data.Some?
  {
    body.data.value.abuseConfidenceScore.Some? && body.data.value.abuseConfidenceScore.value > AUTO_BLOCK_THRESHOLD
  }

  /** What one AbuseIPDB check leaves behind: the service's counter, the
      block list with the audit log, and the value returned. */
  datatype AbuseOutcome = AbuseOutcome(count: nat, state: BlockState, result: Option<AbuseBody>)

  /** `checkIPWithAbuseIPDB(ip)` given the counter, the ceiling, the block
      list and the answer the service would give. At or over the ceiling
      nothing is asked and one `API_LIMIT_REACHED` row is written; otherwise
      the counter rises before the call, a failed call writes
      `ABUSEIPDB_ERROR`, and a reply writes `ABUSEIPDB_CHECK`, then either
      blocks (score above 80), or fails on a reply without `data`
      (`ABUSEIPDB_ERROR`). */
  function AbuseCheck(count: nat, perDay: nat, s: BlockState, ip: string, answer: Reply<AbuseBody>): AbuseOutcome
  {
    if count >= perDay then
      AbuseOutcome(count, s.(log := s.log + [Entry(ApiLimitReached, ApiDetails("AbuseIPDB"))]), None)
    else
      match answer
      case Failed =>
        AbuseOutcome(count + 1, s.(log := s.log + [Entry(AbuseIpdbError, IpDetails(ip))]), None)
      case Replied(body) =>
        var checked := s.(log := s.log + [Entry(AbuseIpdbCheck, IpDetails(ip))]);
        if body.data.None? then
          AbuseOutcome(count + 1, checked.(log := checked.log + [Entry(AbuseIpdbError, IpDetails(ip))]), None)
        else if CallsForBlock(body) then
          AbuseOutcome(count + 1, BlockStep(checked, ip), Some(body))
        else
          AbuseOutcome(count + 1, checked, Some(body))
  }

  /** The gate: at or over the ceiling the check returns `null`, writes one
      `API_LIMIT_REACHED` row, leaves the counter and the block list alone;
      below it, the counter rises by exactly one whatever the service
      answers, so it never passes the ceiling. */
  lemma AbuseQuotaGate(count: nat, perDay: nat, s: BlockState, ip: string, answer: Reply<AbuseBody>)
    ensures var o := AbuseCheck(count, perDay, s, ip, answer);
      && (count >= perDay ==>
            o.result == None && o.count == count
            && o.state == s.(log := s.log + [Entry(ApiLimitReached, ApiDetails("AbuseIPDB"))]))
      && (count < perDay ==> o.count == count + 1)
      && (count <= perDay ==> o.count <= perDay)
  {
  }

  /** The auto-block policy: a reply whose score is strictly above 80
      leaves the address blocked (denied by the middleware), and any other
      outcome of the call leaves both sets as they were. */
  lemma AutoBlockThreshold(count: nat, perDay: nat, s: BlockState, ip: string, answer: Reply<AbuseBody>)
    requires count < perDay
    ensures var o := AbuseCheck(count, perDay, s, ip, answer);
      && (answer.Replied? && answer.body.data.Some? && CallsForBlock(answer.body) ==>
            ip in o.state.memory && (Synced(s) ==> ip in o.state.persisted)
            && Admission(o.state.memory, ip) == Forbidden && o.result == Some(answer.body))
      && (!(answer.Replied? && answer.body.data.Some? && CallsForBlock(answer.body)) ==>
            o.state.memory == s.memory && o.state.persisted == s.persisted)
  {
  }

  /** A score of exactly 80 does not block. */
  lemma ScoreOfEightyDoesNotBlock(count: nat, perDay: nat, s: BlockState, ip: string)
    requires count < perDay && ip !in s.memory
    ensures Admission(AbuseCheck(count, perDay, s, ip, Replied(AbuseBody(Some(AbuseData(Some(80)))))).state.memory, ip) == Next
  {
  }

  /** A failed call writes one `ABUSEIPDB_ERROR` row, returns `null` and
      blocks nothing; so does a reply without `data`, after its
      `ABUSEIPDB_CHECK` row. */
  lemma FailedCheckBlocksNothing(count: nat, perDay: nat, s: BlockState, ip: string, answer: Reply<AbuseBody>)
    requires count < perDay
    requires answer.Failed? || answer.body.data.None?
    ensures var o := AbuseCheck(count, perDay, s, ip, answer);
      && o.result == None && o.state.memory == s.memory && o.state.persisted == s.persisted
      && o.state.log == s.log + (if answer.Failed? then [] else [Entry(AbuseIpdbCheck, IpDetails(ip))])
                              + [Entry(AbuseIpdbError, IpDetails(ip))]
  {
  }

  /** A series of checks in one quota period, each with its own address and
      answer, applied in order. */
  function AbuseCheckAll(count: nat, perDay: nat, s: BlockState, requests: seq<(string, Reply<AbuseBody>)>): AbuseOutcome
    decreases |requests|
  {
    if requests == [] then AbuseOutcome(count, s, None)
    else
      var before := AbuseCheckAll(count, perDay, s, requests[..|requests| - 1]);
      var last := requests[|requests| - 1];
      AbuseCheck(before.count, perDay, before.state, last.0, last.1)
  }

  function Min(a: nat, b: nat): nat
  {
    if a <= b then a else b
  }

  /** One check writes an `API_LIMIT_REACHED` row exactly when it is
      refused, and never removes a row. */
  lemma AbuseCheckLimitRows(count: nat, perDay: nat, s: BlockState, ip: string, answer: Reply<AbuseBody>)
    ensures var o := AbuseCheck(count, perDay, s, ip, answer);
      CountOf(o.state.log, ApiLimitReached) == CountOf(s.log, ApiLimitReached) + (if count >= perDay then 1 else 0)
  {
    var o := AbuseCheck(count, perDay, s, ip, answer);
    if count >= perDay {
      var limitRow := Entry(ApiLimitReached, ApiDetails("AbuseIPDB"));
      CountOfConcat(s.log, [limitRow], ApiLimitReached);
      assert [limitRow][..0] == [];
    } else {
      var added: seq<Entry>;
      match answer
      case Failed =>
        added := [Entry(AbuseIpdbError, IpDetails(ip))];
      case Replied(body) =>
        if body.data.None? {
          added := [Entry(AbuseIpdbCheck, IpDetails(ip)), Entry(AbuseIpdbError, IpDetails(ip))];
        } else if CallsForBlock(body) && ip !in s.memory {
          added := [Entry(AbuseIpdbCheck, IpDetails(ip)), Entry(IpBlocked, IpDetails(ip))];
        } else {
          added := [Entry(AbuseIpdbCheck, IpDetails(ip))];
        }
      assert o.state.log == s.log + added;
      assert forall i :: 0 <= i < |added| ==> added[i].event != ApiLimitReached;
      CountOfZero(added, ApiLimitReached);
      CountOfConcat(s.log, added, ApiLimitReached);
    }
  }

  /** Within one quota period, `n` checks starting from a counter at or
      below the ceiling reach the service `min(n, perDay - count)` times
      (the counter's rise), and every other check writes one
      `API_LIMIT_REACHED` row. */
  lemma {:induction false} QuotaOverManyChecks(count: nat, perDay: nat, s: BlockState, requests: seq<(string, Reply<AbuseBody>)>)
    requires count <= perDay
    ensures var o := AbuseCheckAll(count, perDay, s, requests);
      && o.count == Min(count + |requests|, perDay)
      && CountOf(o.state.log, ApiLimitReached) == CountOf(s.log, ApiLimitReached) + |requests| - (o.count - count)
    decreases |requests|
  {
    if requests != [] {
      var prefix := requests[..|requests| - 1];
      QuotaOverManyChecks(count, perDay, s, prefix);
      var before := AbuseCheckAll(count, perDay, s, prefix);
      var last := requests[|requests| - 1];
      AbuseQuotaGate(before.count, perDay, before.state, last.0, last.1);
      AbuseCheckLimitRows(before.count, perDay, before.state, last.0, last.1);
    }
  }

  /** What one VirusTotal check leaves behind. */
  datatype VirusTotalOutcome<R> = VirusTotalOutcome(count: nat, log: seq<Entry>, result: Option<R>)

  /** `checkFileWithVirusTotal(fileHash)`: the same gate, then
      `VIRUSTOTAL_CHECK` and the report, or `VIRUSTOTAL_ERROR` and `null`. */
  function VirusTotalFileCheck<R>(count: nat, perDay: nat, log: seq<Entry>, fileHash: string, answer: Reply<R>): VirusTotalOutcome<R>
  {
    if count >= perDay then
      VirusTotalOutcome(count, log + [Entry(ApiLimitReached, ApiDetails("VirusTotal"))], None)
    else
      match answer
      case Failed => VirusTotalOutcome(count + 1, log + [Entry(VirusTotalError, HashDetails(fileHash))], None)
      case Replied(report) => VirusTotalOutcome(count + 1, log + [Entry(VirusTotalCheck, HashDetails(fileHash))], Some(report))
  }

  /** The VirusTotal gate: refused at or over the ceiling with one
      `API_LIMIT_REACHED` row and no change to the counter, otherwise the
      counter rises by one whether the call succeeds or fails, and exactly
      one row is written either way. */
  lemma VirusTotalQuotaGate<R>(count: nat, perDay: nat, log: seq<Entry>, fileHash: string, answer: Reply<R>)
    ensures var o := VirusTotalFileCheck(count, perDay, log, fileHash, answer);
      && |o.log| == |log| + 1 && o.log[..|log|] == log
      && (count >= perDay ==> o.result == None && o.count == count && o.log[|log|].event == ApiLimitReached)
      && (count < perDay ==> o.count == count + 1 && o.log[|log|].event != ApiLimitReached)
      && (count < perDay ==> (o.result.Some? <==> answer.Replied?))
      && (count <= perDay ==> o.count <= perDay)
  {
  }

  /** One service's entry of `API_LIMITS`. */
  class ApiLimit {
    const daily: nat
    const perDay: nat
    var count: nat

    /** The counter never passes the ceiling. */
    ghost predicate Valid()
      reads this
    {
      count <= perDay
    }

    constructor (daily: nat, perDay: nat)
      ensures Valid() && count == 0 && this.daily == daily && this.perDay == perDay
    {
      this.daily := daily;
      this.perDay := perDay;
      count := 0;
    }
  }

  /** `API_LIMITS`: one counter per external service. */
  class ApiLimits {
    const virustotal: ApiLimit
    const abuseipdb: ApiLimit

    ghost predicate Valid()
      reads this, virustotal, abuseipdb
    {
      virustotal != abuseipdb && virustotal.Valid() && abuseipdb.Valid()
    }

    /** Both services start at 0 of 100 calls (and a `daily` of 500). */
    constructor ()
      ensures Valid() && fresh(virustotal) && fresh(abuseipdb)
      ensures virustotal.count == 0 && virustotal.perDay == PER_DAY && virustotal.daily == DAILY
      ensures abuseipdb.count == 0 && abuseipdb.perDay == PER_DAY && abuseipdb.daily == DAILY
    {
      virustotal := new ApiLimit(DAILY, PER_DAY);
      abuseipdb := new ApiLimit(DAILY, PER_DAY);
    }

    /** The reset timer: both counters go back to zero together, whatever
        each service's own traffic was. */
    method ResetCounters()
      requires Valid()
      modifies virustotal, abuseipdb
      ensures Valid()
      ensures virustotal.count == 0 && abuseipdb.count == 0
    {
      virustotal.count := 0;
      abuseipdb.count := 0;
    }
  }

  /** `checkIPWithAbuseIPDB(ip)`; `answer` is what AbuseIPDB would reply. */
  method CheckIPWithAbuseIPDB(limit: ApiLimit, blocks: BlockList, ip: string, answer: Reply<AbuseBody>)
    returns (r: Option<AbuseBody>)
    requires limit.Valid()
    modifies limit, blocks, blocks.log
    ensures limit.Valid()
    ensures AbuseOutcome(limit.count, blocks.State(), r) == AbuseCheck(old(limit.count), limit.perDay, old(blocks.State()), ip, answer)
  {
    if limit.count >= limit.perDay {
      blocks.log.Add(ApiLimitReached, ApiDetails("AbuseIPDB"));
      return None;
    }
    limit.count := limit.count + 1;
    match answer
    case Failed =>
      blocks.log.Add(AbuseIpdbError, IpDetails(ip));
      r := None;
    case Replied(body) =>
      blocks.log.Add(AbuseIpdbCheck, IpDetails(ip));
      if body.data.None? {
        blocks.log.Add(AbuseIpdbError, IpDetails(ip));
        r := None;
      } else {
        if CallsForBlock(body) {
          blocks.Block(ip);
        }
        r := Some(body);
      }
  }

  /** `checkFileWithVirusTotal(fileHash)`; `answer` is what VirusTotal
      would reply. */
  method CheckFileWithVirusTotal<R>(limit: ApiLimit, log: AuditLog, fileHash: string, answer: Reply<R>)
    returns (r: Option<R>)
    requires limit.Valid()
    modifies limit, log
    ensures limit.Valid()
    ensures VirusTotalOutcome(limit.count, log.entries, r) == VirusTotalFileCheck(old(limit.count), limit.perDay, old(log.entries), fileHash, answer)
  {
    if limit.count >= limit.perDay {
      log.Add(ApiLimitReached, ApiDetails("VirusTotal"));
      return None;
    }
    limit.count := limit.count + 1;
    match answer
    case Failed =>
      log.Add(VirusTotalError, HashDetails(fileHash));
      r := None;
    case Replied(report) =>
      log.Add(VirusTotalCheck, HashDetails(fileHash));
      r := Some(report);
  }
}
